=== FILE: README.md ===
# Feed views of a group community backend, modelled in Dafny

This project models the request-level logic of the `feeds` app of a Django
REST backend. In that app, users belong to groups and write feeds (posts)
inside their group. The feeds carry comments and replies ("recomments"),
likes and images. The model covers the following:

- **Handlers.** Each handler of `feeds/views.py` is a total function of an
  immutable store (one sequence per table), the actor (a visitor or a
  signed-in user) and the raw request parameters. Missing query values are
  `None`; present ones are the raw text. The result is a `Response`: either
  `Ok` with a body, or an `Error` with status 400, 403, 404 or 500. A
  handler that writes also returns the new store.
- **Pagination.** The four listings share the same "clamp, then reject"
  block. It asks Django's `Paginator` for the requested page and falls back
  to the last page when the paginator refuses. It then answers 400 when the
  page number as requested lies beyond the last page. A non-numeric page
  number, or one of more than 4300 digits, is an uncaught `ValueError`, so a 500. The global list has 24
  feeds per page; the group/category list and the search results have 12.
- **Permission checks**, following the code:
  - reading a feed or its comments: same group, or staff;
  - editing or deleting: the owner only;
  - commenting and replying: same group only, with no staff bypass;
  - replying under a comment of another feed: 403;
  - the category listing compares `str(user.group.pk)` with the raw
    `group_id` text, and looks the category up by key alone;
  - the two search endpoints check no group at all.
- **Anonymiser** of the comment listing. It is a fold that threads one
  `user → number` map through the comments and their replies. The feed's
  writer is labelled `익명(작성자)`. Everyone else is labelled `익명n`, where
  `n` is the user's rank in the order of first appearance. The model proves
  this fold equal to a reference definition, `FirstSeen` of the authors in
  walk order. From that it derives dense numbering, one number per user,
  that only labels change, and idempotence.
- **Selections.** The category listing has two reserved names: `전체글`
  (every feed of the group, newest first) and `인기글` (every feed of the
  group, most liked first). Any other category selects that category's
  feeds, newest first. The search suggestions are at most 5 feeds whose
  title contains the keyword, newest first. The full search matches the
  title or the description. Keyword matching is case-insensitive.
- **Derived attributes** of `feeds/models.py`:
  - the like and comment counts;
  - the most-liked comment;
  - the thumbnail (the first image's url);
  - `visited`, which starts at 0 (`FeedAttributes.NewFeed`) and is a `nat`;
  - the string form, which is the title (`FeedAttributes.FeedString`).

Where the views' own API documentation disagrees with the code, the model
follows the code:

- Commenting and replying give staff no bypass.
- A reply under a comment of another feed is answered with 403, not 404.
- The category listing does not check that the category belongs to the
  requested group (`CategoryOfAnyGroupAccepted`).
- The search endpoints never answer 403 to a signed-in user, whatever their group (`SearchIgnoresTheUser`); only a visitor is refused.

Files, one module each:

- `results.dfy`: `Option`, `Status`, `Response`.
- `text.dfy`: decimal rendering and parsing (`str()`/`int()`), and ASCII
  case-insensitive substring search.
- `seqs.dfy`: filter, count, descending sort, take, arg-max.
- `entities.dfy`: the rows and key lookups.
- `feed_attributes.dfy`: the model properties.
- `pagination.dfy`: the pagination block.
- `permissions.dfy`: the permission checks.
- `anonymiser.dfy`: the comment labels.
- `queries.dfy`: the feed selections.
- `views.dfy`: the handlers.

## Model

| member | source | states |
|---|---|---|
| Results.Code | feeds/views.py:240 | every error status is an HTTP error code (400–599); it is a server error exactly when the status is `ServerError` |
| Text.NatToString | feeds/views.py:451 | `str()` of a non-negative key is a non-empty run of digits without a leading zero |
| Text.NatToStringRoundTrip | feeds/views.py:451 | reading the digits of `str(n)` back gives `n` |
| Text.NatToStringInjective | feeds/views.py:451 | distinct keys render as distinct text |
| Text.IntToStringRoundTrip | feeds/views.py:238 | `int(str(n)) == n` for every integer of at most 4300 digits, signs included (beyond that `str()` itself raises) |
| Text.NatToStringLength | feeds/views.py:238 | a number below `10^k` renders in at most `k` digits |
| Text.ParseInt | feeds/views.py:238 | `int()` succeeds exactly on an optional sign followed by one to 4300 digits (`ValueError` beyond, leading zeros counted), and the value is the decimal value of the digits, negated after a minus sign (leading zeros and a plus sign allowed) |
| Text.ParseIntSignedForms | feeds/views.py:238 | `"+7"` reads as 7, `"-012"` as -12, `"007"` as 7; a lone sign, the empty string and 4301 digits (with or without a sign) are a `ValueError`, while 4300 digits read as their value |
| Text.ContainsFolded | feeds/views.py:743-745 | `icontains` holds exactly when the keyword occurs, ignoring ASCII case, at some position of the text |
| Text.StartsWithFolded | feeds/views.py:743-745 | a case-insensitive match at position 0 |
| Seqs.Filter | feeds/views.py:458 | a filter keeps exactly the matching elements, each as often as in the input, and never grows the sequence |
| Seqs.CountIsFilterLength | feeds/models.py:35 | a count is the length of the filtered sequence |
| Seqs.CountDistinct | feeds/models.py:35 | on distinct rows, a count is the size of the set of matching rows |
| Seqs.SortDesc | feeds/views.py:226 | `order_by("-key")` is a permutation of its input in descending key order |
| Seqs.SortMembers | feeds/views.py:226 | sorting neither adds nor drops an element |
| Seqs.Take | feeds/views.py:745 | `[:k]` is a prefix of at most `k` elements |
| Seqs.TakeKeepsLargest | feeds/views.py:743-745 | the first `k` of a descending sequence are its largest: an element left out is no larger than any kept, and nothing is left out when fewer than `k` are kept |
| Seqs.MaxBy | feeds/models.py:43-45 | the chosen element is in the sequence and no element has a larger key |
| Entities.FindFeed | feeds/views.py:316 | `get_object_or_404(Feed, pk=pk)` finds a row with that key, and finds nothing exactly when no row has it |
| Entities.FindCategory | feeds/views.py:453 | the category lookup by key finds a row with that key, and nothing exactly when none has it |
| Entities.FindComment | feeds/views.py:682 | the comment lookup by key finds a row with that key, and nothing exactly when none has it |
| Entities.KeyRoundTrip | config/settings.py:170 | a `BigAutoField` key has few enough digits that its `str()` reads back through `int()` as the key |
| FeedAttributes.LikeCount | feeds/models.py:33-35 | the like count is the number of like rows pointing at the feed, repeated rows included; zero exactly when there is none |
| FeedAttributes.LikeCountCountsLikers | feeds/models.py:33-35 | when no user likes a feed twice, the like count is the number of users who like it |
| FeedAttributes.CommentsCountIsSetSize | feeds/models.py:37-39 | the comment count is the number of comment rows attached to the feed |
| FeedAttributes.CommentsCount | feeds/models.py:37-39 | the comment count is the number of comment rows pointing at the feed, and zero exactly when there is none |
| FeedAttributes.HighestLikeComments | feeds/models.py:41-45 | at most one comment; none exactly when the feed has no comments; otherwise a comment of the feed with a like count at least every other comment's |
| FeedAttributes.Thumbnail | feeds/models.py:47-52 | `None` exactly when the feed has no image; otherwise the url of the feed's first image |
| FeedAttributes.FeedStringShowsTitleOnly | feeds/models.py:30-31 | two feeds read alike exactly when their titles are equal; no other column shows |
| Pagination.NumPages | feeds/views.py:233 | the page count is the least `n ≥ 1` with `max(1, count) ≤ n * per_page` |
| Pagination.MulIsProduct | feeds/views.py:233 | the repeated-addition product used for page boundaries is the product |
| Pagination.ServedPage | feeds/views.py:234-237 | the page served is the requested one when it exists, else the last page |
| Pagination.PageSlice | feeds/views.py:234-237 | page `k` is the run of items from `(k-1)*per_page`, `per_page` long or up to the end |
| Pagination.Paginate | feeds/views.py:231-240 | a non-numeric page is a 500; a page above `num_pages` is a 400; otherwise the requested page, or the last page for a number below 1, with `total_pages`, `now_page` and `count` as the paginator reports them |
| Pagination.OverlongPageIsServerError | feeds/views.py:234-239 | a page number of more than 4300 digits falls back to the last page and then makes `int()` raise: 500, not 400 |
| Pagination.PageSizes | feeds/views.py:231-240 | a page holds at most `per_page` items, every page before the last is full, and the last page of a non-empty list is not empty |
| Pagination.PageSliceWithin | feeds/views.py:479-488 | a page holds items of the list only, in the list's order |
| Pagination.PagesUpToIsPrefix | feeds/views.py:807-816 | the first `k` pages are exactly the first `k * per_page` items |
| Pagination.PagesCoverItems | feeds/views.py:231-240 | reading pages 1 to `num_pages` yields every item exactly once, in order |
| Pagination.FiftyFeedsAtTwentyFour | feeds/views.py:231-240 | with 50 feeds: 3 pages, page 1 holds 24, page 4 is a 400, page 0 serves page 3 with the last 2 |
| Permissions.GroupListingCheck | feeds/views.py:450-452 | staff pass; a user without a group is a 500; anyone else passes exactly when `group_id` is the text of their group key |
| Permissions.ListingCheckPinsOwnGroup | feeds/views.py:450-452 | a non-staff user (with a 64-bit group key) who passes the check has asked for their own group |
| Permissions.CommentIsNarrowerThanRead | feeds/views.py:643-644 | whoever may comment may read; staff may read any feed but comment only inside their group |
| Permissions.ModifyIgnoresGroupAndStaff | feeds/views.py:358-359 | the ownership check does not depend on the user's group or staff flag |
| Permissions.ReadIsCommentOrStaff | feeds/views.py:318-320 | a feed may be read exactly by those who may comment on it, and by staff besides |
| Permissions.CommentDependsOnGroupOnly | feeds/views.py:643-644 | users of the same group have the same comment rights whatever their staff flag; a user with a group cannot comment on a feed without one |
| Permissions.OwnerOnly | feeds/views.py:358-359 | exactly the owner may edit or delete a feed, so no two users both may |
| Anonymiser.IndexOfAppend | feeds/views.py:604-605 | a user's number does not change when later users are added |
| Anonymiser.FirstSeenAppend | feeds/views.py:604-605 | a new non-writer user is appended to the order of first appearance, and a known user or the writer leaves it unchanged |
| Anonymiser.FirstSeenPrefix | feeds/views.py:599-616 | the first-appearance order of a prefix of the walk is a prefix of the whole walk's order |
| Anonymiser.ExpectedStable | feeds/views.py:599-616 | a label given early in the walk is the label the whole thread assigns |
| Anonymiser.AssignTracks | feeds/views.py:600-606 | one labelling step keeps the map equal to "rank in first-appearance order" and gives the reference label |
| Anonymiser.LabelRepliesCorrect | feeds/views.py:608-616 | labelling a comment's replies gives each the reference label and keeps the map in step |
| Anonymiser.LabelCommentsCorrect | feeds/views.py:599-616 | labelling the comments gives every comment and reply the reference label |
| Anonymiser.Anonymise | feeds/views.py:598-618 | every comment and reply gets the writer label when flagged, else `Numbered(n)` with `n` its user's rank in first-appearance order |
| Anonymiser.FinalNumbers | feeds/views.py:598-618 | the final map sends each user to their rank in first-appearance order |
| Anonymiser.FirstSeenDistinct | feeds/views.py:604-605 | no user is numbered twice |
| Anonymiser.FirstSeenMembers | feeds/views.py:600-606 | exactly the users who appear at least once as non-writers get a number |
| Anonymiser.FirstSeenCountsUsers | feeds/views.py:604-605 | the number of numbers handed out is the number of distinct non-writer users |
| Anonymiser.FirstAppearanceGetsNextNumber | feeds/views.py:604-605 | a user's first appearance gets one more than the number of distinct users seen before it |
| Anonymiser.SameLabelIffSameUser | feeds/views.py:603-606 | two non-writer authors get the same label exactly when they are the same user |
| Anonymiser.WriterNeverNumbered | feeds/views.py:600-601 | the writer flag always gives the writer label |
| Anonymiser.NumbersAreDense | feeds/views.py:599-616 | the numbers in use are exactly 1 to the number of distinct non-writer users |
| Anonymiser.AuthorsUnchanged | feeds/views.py:598-618 | labelling keeps every author and writer flag in place |
| Anonymiser.OnlyLabelsChange | feeds/views.py:598-618 | with the labels erased, the output is the input: no comment or reply is added, dropped, reordered or altered |
| Anonymiser.LabelledUnique | feeds/views.py:598-618 | the labelling that meets the reference is unique |
| Anonymiser.AnonymiseIdempotent | feeds/views.py:598-618 | labelling a labelled thread again changes nothing |
| Anonymiser.LabelTextInjective | feeds/views.py:601-606 | distinct labels render as distinct text (`익명(작성자)`, `익명1`, `익명2`, …) |
| Queries.GroupScope | feeds/views.py:458 | a missing `group_id` selects feeds without a group; a non-numeric one is a 500; otherwise the parsed key |
| Queries.CategoryFeeds | feeds/views.py:454-478 | exactly the group's feeds of the category (of any category for the two reserved names), each once per row; by likes descending for `인기글`, else newest first |
| Queries.SuggestedFeeds | feeds/views.py:743-745 | feeds of the group whose title contains the keyword, newest first, each at most as often as it is stored: five of them, or all when fewer match |
| Queries.SuggestionsAreTheNewestMatches | feeds/views.py:743-745 | no matching feed is left out while an older one is shown, and with fewer than 5 shown every match is |
| Queries.SearchFeeds | feeds/views.py:802-806 | exactly the group's feeds whose title or description contains the keyword, newest first |
| Queries.SuggestionsWithinSearch | feeds/views.py:743-745 | every suggestion is also a full-search result |
| FeedViews.ListFeeds | feeds/views.py:221-253 | open to visitors; 500 for a non-numeric page and 400 for one beyond `num_pages`, otherwise 200; the page served is the requested one (the last for a number below 1), holding that run of the feeds sorted newest first at 24 per page, with `total_pages` and `count` as the paginator reports them |
| FeedViews.CreateFeed | feeds/views.py:284-299 | visitor 403, invalid body 400, 404 exactly when no category of the user's group has the key, and success otherwise: one new feed by the user in the user's group, with `visited` 0; the store changes only on success |
| FeedViews.CreateKeepsTotalVisits | feeds/models.py:25-28 | a new feed starts unvisited: creating one leaves the sum of all `visited` counters unchanged |
| FeedViews.VisitTouchesOnlyTheFeed | feeds/views.py:322 | the update adds one to the counter of the feed with that key and changes no other column and no other feed |
| FeedViews.FindAfterVisit | feeds/views.py:322 | looking the feed up after the update finds it with exactly one more visit |
| FeedViews.ReadableFeed | feeds/views.py:316-320 | visitor 403, unknown key 404, another group without staff 403, otherwise the feed with that key |
| FeedViews.ReadFeed | feeds/views.py:315-327 | visitor 403, unknown key 404, another group without staff 403, each with the store unchanged; otherwise the feed as read before the update, while the stored feed now has one more visit than the one served |
| FeedViews.ReadCountsOneVisit | feeds/views.py:322 | with unique keys, a successful read raises the total of all counters by exactly one |
| FeedViews.TotalVisitsOneChange | feeds/views.py:322 | one counter up by one and the rest equal raise the total by one |
| FeedViews.TotalVisitsSame | feeds/views.py:322 | equal counters give equal totals |
| FeedViews.UpdateFeed | feeds/views.py:356-375 | 404 exactly for an unknown key; 403 exactly for a visitor or anyone but the owner (staff included), whatever the body; 400 exactly for the owner with an invalid body; success otherwise |
| FeedViews.FeedEndpointsAnswer4xx | feeds/views.py:315-389 | reading, editing and deleting a feed fail only with 4xx codes, never 500 |
| FeedViews.DeleteFeed | feeds/views.py:384-389 | 404 exactly for an unknown key; 403 exactly for a visitor or anyone but the owner; success otherwise, after which no row has the key and every other feed is kept; the model leaves the other tables unchanged |
| FeedViews.EditAndDeleteAgree | feeds/views.py:356-389 | edit (with a valid body) and delete give the same answer to every request |
| FeedViews.LookupCategory | feeds/views.py:448-453 | a missing `category_id` is a 404, a non-numeric one a 500, an unknown key a 404, else the category with that key |
| FeedViews.CategoryListing | feeds/views.py:446-501 | visitor 403; then the group check's 403/500; then 404 exactly for a missing or unknown category and 500 for a non-numeric one; then 500 for a non-numeric group; otherwise the pagination answer over the listing's feeds at 12 per page, only feeds of the listing |
| FeedViews.CategoryPage | feeds/views.py:479-501 | the pagination answer over the category's selection at 12 per page; the page is ordered most liked first under `인기글` and newest first otherwise |
| FeedViews.CategoryListingStaysInGroup | feeds/views.py:450-478 | a non-staff user who gets a page sees only feeds of their own group |
| FeedViews.CategoryOfAnyGroupAccepted | feeds/views.py:450-453 | a user asking for their own group gets the first page for any existing category key, a category of another group included |
| FeedViews.ListComments | feeds/views.py:585-618 | visitor 403, unknown feed 404, another group without staff 403; otherwise the thread with every label as the reference assigns it |
| FeedViews.PostComment | feeds/views.py:641-651 | 404 exactly for an unknown feed; 403 exactly for a visitor or a user outside the feed's group (no staff bypass); 400 exactly for an allowed user with an invalid body; otherwise one comment row by the user on the feed and nothing else changes |
| FeedViews.PostRecomment | feeds/views.py:678-697 | 404 exactly for an unknown feed or, after the group check, an unknown comment; 403 exactly for a visitor, a user outside the feed's group or a comment of another feed; 400 exactly for an invalid body once every check passes; otherwise one reply row and nothing else changes |
| FeedViews.RecommentNeedsCommentRights | feeds/views.py:678-684 | a reply is accepted only where a top-level comment would be |
| FeedViews.SuggestionsOfMatches | feeds/views.py:746 | every `{id, title}` entry names a feed of the group whose title matches |
| FeedViews.SearchSuggestions | feeds/views.py:739-749 | visitor 403; an empty 200 for a missing or empty keyword; a non-numeric group 500; otherwise the `(id, title)` pairs of `Queries.SuggestedFeeds` in order, that is at most 5 matching feeds of the group, newest first |
| FeedViews.SearchResults | feeds/views.py:798-831 | visitor 403; an empty 200 for a missing or empty keyword; a non-numeric group 500; otherwise 500 for a non-numeric page, 400 beyond `num_pages`, and else the requested page of the group's matches, newest first, 12 per page, with the paginator's totals |
| FeedViews.SearchIgnoresTheUser | feeds/views.py:739-831 | the answer does not depend on who the signed-in user is |

## Left out

- `TopLikeView` (feeds/views.py:504-567) is not modelled. Line 543 applies unary minus to a string, so every call raises `TypeError`.
- The Swagger schema objects and decorators, and the unused `IsCoachOrStaff` permission class, are not modelled: they are documentation or dead code.
- The serializers are not part of this model. What they decide arrives as an input:
  - whether a request body is valid;
  - the comment thread with its `feed_writer` flags;
  - how records are rendered.
- The image argument of feed creation and update is not modelled.
- CreateFeed: the response is the created record. The code answers with the data of a fresh, unbound serializer (feeds/views.py:296-297), and this model does not render responses.
- UpdateFeed: only the status is modelled. Which fields a partial update rewrites is serializer behaviour.
- CreateFeed: the category key is taken as an already-parsed integer or absent. A non-numeric key in the body is not modelled.
- The ORM is replaced by plain sequences. This covers query building, `select_related`/`prefetch_related`, the cache and the sessions.
- The `F("visited") + 1` update is one atomic step; concurrency is not modelled.
- FeedViews.DeleteFeed: cascade deletes of comments, likes and images are not modelled; the model removes the feed row only and leaves the other tables unchanged.
- `visited` is an unbounded `nat`; the database column's upper bound is not modelled.
- Text.ContainsFolded: folds ASCII letters only, whereas `icontains` folds according to the database's collation.
- Text.ParseInt: accepts an optional sign and at most 4300 ASCII digits. Python's `int()` also accepts surrounding whitespace, underscores and non-ASCII digits.
- Seqs.SortDesc: fixes one order among equal keys, whereas the database leaves it unspecified. The listing contracts pin their pages to this order; their sortedness and membership clauses hold for any order.
- The response rendering of the search results (`TinyFeedSerializer`) is not modelled: results are feed records.
- likes/models.py is not modelled: it holds no logic.
- Settings, migrations and routing are not modelled.

=== FILE: anonymiser.dfy ===
/** The comment-thread anonymiser of the comment listing view. The serialized
    comments of a feed, each with its replies ("recomments"), are walked in
    order, a comment before its own replies and those before the next
    comment, threading one map from user to number through the whole walk.
    An entry written by the feed's author is labelled "익명(작성자)"; any
    other entry is labelled "익명N", where N is the user's number, handed out
    as "size of the map + 1" the first time the user is met. */
module Anonymiser {
  import opened Results
  import opened Entities
  import Text

  /** The label the view stores under `anonymous_number`. */
  datatype Label = Writer | Numbered(n: nat)

  /** A serialized reply: `feedWriter` is the serializer's `feed_writer`
      flag and `anonymousNumber` the key the anonymiser adds. */
  datatype Reply = Reply(id: int, user: UserId, feedWriter: bool, description: string,
                         anonymousNumber: Option<Label>)

  /** A serialized comment with its replies in order. */
  datatype Comment = Comment(id: int, user: UserId, feedWriter: bool, description: string,
                             replies: seq<Reply>, anonymousNumber: Option<Label>)

  type Numbers = map<UserId, nat>

  /** One position of the walk: who wrote the entry and whether it is the
      feed's author. */
  datatype Author = Author(user: UserId, feedWriter: bool)

  function CommentAuthor(c: Comment): Author {
    Author(c.user, c.feedWriter)
  }

  function ReplyAuthor(r: Reply): Author {
    Author(r.user, r.feedWriter)
  }

  // ---------------------------------------------------------------------
  // The walk, as the view performs it

  /** One entry: the author's label, and the map with a number added the
      first time a user other than the feed's author is met. */
  function Assign(m: Numbers, a: Author): (Label, Numbers) {
    if a.feedWriter then (Writer, m)
    else if a.user in m then (Numbered(m[a.user]), m)
    else (Numbered(|m| + 1), m[a.user := |m| + 1])
  }

  function LabelReplies(m: Numbers, rs: seq<Reply>): (seq<Reply>, Numbers)
    decreases |rs|
  {
    if |rs| == 0 then ([], m)
    else
      var (l, m1) := Assign(m, ReplyAuthor(rs[0]));
      var (rest, m2) := LabelReplies(m1, rs[1..]);
      ([rs[0].(anonymousNumber := Some(l))] + rest, m2)
  }

  function LabelComments(m: Numbers, cs: seq<Comment>): (seq<Comment>, Numbers)
    decreases |cs|
  {
    if |cs| == 0 then ([], m)
    else
      var (l, m1) := Assign(m, CommentAuthor(cs[0]));
      var (rs, m2) := LabelReplies(m1, cs[0].replies);
      var (rest, m3) := LabelComments(m2, cs[1..]);
      ([cs[0].(anonymousNumber := Some(l), replies := rs)] + rest, m3)
  }

  // ---------------------------------------------------------------------
  // The reference: numbering by order of first appearance

  /** The authors in walk order. */
  function ReplyAuthors(rs: seq<Reply>): (ws: seq<Author>)
    ensures |ws| == |rs|
    ensures forall j :: 0 <= j < |rs| ==> ws[j] == ReplyAuthor(rs[j])
  {
    seq(|rs|, j requires 0 <= j < |rs| => ReplyAuthor(rs[j]))
  }

  function CommentAuthors(c: Comment): seq<Author> {
    [CommentAuthor(c)] + ReplyAuthors(c.replies)
  }

  function Authors(cs: seq<Comment>): seq<Author>
    decreases |cs|
  {
    if |cs| == 0 then [] else CommentAuthors(cs[0]) + Authors(cs[1..])
  }

  /** The users other than the feed's author, each once, in the order the
      walk first meets them. */
  function FirstSeen(ws: seq<Author>): seq<UserId>
    decreases |ws|
  {
    if |ws| == 0 then []
    else
      var prior := FirstSeen(ws[..|ws| - 1]);
      var a := ws[|ws| - 1];
      if a.feedWriter || a.user in prior then prior else prior + [a.user]
  }

  /** The first position of `x` in `s`. */
  function IndexOf(s: seq<UserId>, x: UserId): (i: nat)
    requires x in s
    ensures i < |s| && s[i] == x
    ensures forall j :: 0 <= j < i ==> s[j] != x
    decreases |s|
  {
    if s[0] == x then 0 else 1 + IndexOf(s[1..], x)
  }

  /** The label an author should get given the first-appearance order:
      "작성자" for the feed's author, else one more than the user's place in
      the order. */
  function Expected(order: seq<UserId>, a: Author): Label {
    if a.feedWriter then Writer
    else if a.user in order then Numbered(IndexOf(order, a.user) + 1)
    else Numbered(0)
  }

  /** The first-appearance order of a whole thread. */
  function Order(cs: seq<Comment>): seq<UserId> {
    FirstSeen(Authors(cs))
  }

  /** `c2` is `c` with `anonymous_number` set as `order` prescribes on the
      comment and on every reply, and nothing else changed. */
  predicate CommentLabelled(c: Comment, c2: Comment, order: seq<UserId>) {
    && c2 == c.(anonymousNumber := Some(Expected(order, CommentAuthor(c))), replies := c2.replies)
    && |c2.replies| == |c.replies|
    && forall j :: 0 <= j < |c.replies| ==>
         c2.replies[j] == c.replies[j].(anonymousNumber := Some(Expected(order, ReplyAuthor(c.replies[j]))))
  }

  predicate ThreadLabelled(cs: seq<Comment>, out: seq<Comment>, order: seq<UserId>) {
    |out| == |cs| && forall i :: 0 <= i < |cs| ==> CommentLabelled(cs[i], out[i], order)
  }

  // ---------------------------------------------------------------------
  // The walk keeps the map in step with the first-appearance order

  /** `m` numbers the users of `order` by their place in it, from 1. */
  ghost predicate Tracks(m: Numbers, order: seq<UserId>) {
    && |m| == |order|
    && (forall u :: u in m <==> u in order)
    && (forall i :: 0 <= i < |order| ==> order[i] in m && m[order[i]] == i + 1)
  }

  lemma IndexOfAppend(p: seq<UserId>, q: seq<UserId>, x: UserId)
    requires x in p
    ensures IndexOf(p + q, x) == IndexOf(p, x)
  {
    var i := IndexOf(p, x);
    var k := IndexOf(p + q, x);
    assert (p + q)[i] == x;
  }

  lemma FirstSeenAppend(done: seq<Author>, a: Author)
    ensures FirstSeen(done + [a]) ==
              if a.feedWriter || a.user in FirstSeen(done) then FirstSeen(done)
              else FirstSeen(done) + [a.user]
  {
    assert (done + [a])[..|done|] == done;
  }

  /** The first-appearance order of a prefix is a prefix of the order. */
  lemma {:induction false} FirstSeenPrefix(p: seq<Author>, q: seq<Author>)
    ensures FirstSeen(p) <= FirstSeen(p + q)
    decreases |q|
  {
    if |q| > 0 {
      var q0 := q[..|q| - 1];
      FirstSeenPrefix(p, q0);
      assert p + q == (p + q0) + [q[|q| - 1]];
      FirstSeenAppend(p + q0, q[|q| - 1]);
      var a := FirstSeen(p);
      var b := FirstSeen(p + q0);
      var c := FirstSeen(p + q);
      assert b <= c;
      assert a == b[..|a|] && b == c[..|b|];
      assert a == c[..|a|];
    } else {
      assert p + q == p;
    }
  }

  /** Once the walk has met an author, the label it deserves no longer
      changes as the walk goes on. */
  lemma ExpectedStable(p: seq<Author>, whole: seq<Author>, a: Author)
    requires p <= whole
    requires a.feedWriter || a.user in FirstSeen(p)
    ensures Expected(FirstSeen(p), a) == Expected(FirstSeen(whole), a)
  {
    assert whole == p + whole[|p|..];
    FirstSeenPrefix(p, whole[|p|..]);
    var o := FirstSeen(p);
    var o' := FirstSeen(whole);
    if !a.feedWriter {
      assert o' == o + o'[|o|..];
      IndexOfAppend(o, o'[|o|..], a.user);
    }
  }

  /** Numbering a user not yet in the order with the next number keeps the
      map in step with the order extended by that user. */
  lemma TracksExtend(m: Numbers, o: seq<UserId>, u: UserId)
    requires Tracks(m, o) && u !in o
    ensures Tracks(m[u := |m| + 1], o + [u])
    ensures IndexOf(o + [u], u) == |o|
  {
    var o' := o + [u];
    assert forall i :: 0 <= i < |o| ==> o'[i] == o[i] && o[i] != u;
    assert o'[|o|] == u;
  }

  /** One step of the walk keeps the map in step with the order, and hands
      out the label the order prescribes. */
  lemma AssignTracks(m: Numbers, done: seq<Author>, a: Author)
    requires Tracks(m, FirstSeen(done))
    ensures Tracks(Assign(m, a).1, FirstSeen(done + [a]))
    ensures Assign(m, a).0 == Expected(FirstSeen(done + [a]), a)
    ensures a.feedWriter || a.user in FirstSeen(done + [a])
  {
    FirstSeenAppend(done, a);
    var o := FirstSeen(done);
    if !a.feedWriter {
      if a.user in m {
        var i := IndexOf(o, a.user);
        assert m[o[i]] == i + 1;
      } else {
        TracksExtend(m, o, a.user);
      }
    }
  }

  /** The reply authors split as head and tail, re-associated after `done`. */
  lemma ReplyAuthorsCons(done: seq<Author>, rs: seq<Reply>)
    requires |rs| > 0
    ensures done + ReplyAuthors(rs) == (done + [ReplyAuthor(rs[0])]) + ReplyAuthors(rs[1..])
  {
    assert ReplyAuthors(rs) == [ReplyAuthor(rs[0])] + ReplyAuthors(rs[1..]);
  }

  /** The thread's authors split as first comment, its replies, and the rest,
      re-associated after `done`. */
  lemma AuthorsCons(done: seq<Author>, cs: seq<Comment>)
    requires |cs| > 0
    ensures done + Authors(cs) ==
              ((done + [CommentAuthor(cs[0])]) + ReplyAuthors(cs[0].replies)) + Authors(cs[1..])
  {
    var x, y, z := [CommentAuthor(cs[0])], ReplyAuthors(cs[0].replies), Authors(cs[1..]);
    assert Authors(cs) == CommentAuthors(cs[0]) + z;
    assert CommentAuthors(cs[0]) == x + y;
    SeqAssoc(done, x + y, z);
    SeqAssoc(done, x, y);
  }

  lemma SeqAssoc(p: seq<Author>, q: seq<Author>, r: seq<Author>)
    ensures p + (q + r) == (p + q) + r
  {
  }

  lemma {:induction false} LabelRepliesCorrect(m: Numbers, done: seq<Author>, rs: seq<Reply>,
                                               whole: seq<Author>)
    requires Tracks(m, FirstSeen(done))
    requires done + ReplyAuthors(rs) <= whole
    ensures Tracks(LabelReplies(m, rs).1, FirstSeen(done + ReplyAuthors(rs)))
    ensures |LabelReplies(m, rs).0| == |rs|
    ensures forall j :: 0 <= j < |rs| ==>
              LabelReplies(m, rs).0[j] == rs[j].(anonymousNumber := Some(Expected(FirstSeen(whole), ReplyAuthor(rs[j]))))
    decreases |rs|
  {
    if |rs| > 0 {
      var a := ReplyAuthor(rs[0]);
      var m1 := Assign(m, a).1;
      var done1 := done + [a];
      ReplyAuthorsCons(done, rs);
      assert done1 <= whole by {
        assert done1 <= done + ReplyAuthors(rs);
      }
      AssignTracks(m, done, a);
      ExpectedStable(done1, whole, a);
      LabelRepliesCorrect(m1, done1, rs[1..], whole);
      var rest := LabelReplies(m1, rs[1..]).0;
      var out := LabelReplies(m, rs).0;
      assert out == [rs[0].(anonymousNumber := Some(Assign(m, a).0))] + rest;
      forall j | 1 <= j < |rs|
        ensures out[j] == rs[j].(anonymousNumber := Some(Expected(FirstSeen(whole), ReplyAuthor(rs[j]))))
      {
        assert out[j] == rest[j - 1] && rs[j] == rs[1..][j - 1];
      }
    } else {
      assert done + ReplyAuthors(rs) == done;
    }
  }

  lemma ThreadLabelledCons(cs: seq<Comment>, head: Comment, rest: seq<Comment>, order: seq<UserId>)
    requires |cs| > 0
    requires CommentLabelled(cs[0], head, order)
    requires ThreadLabelled(cs[1..], rest, order)
    ensures ThreadLabelled(cs, [head] + rest, order)
  {
    var out := [head] + rest;
    forall i | 1 <= i < |cs| ensures CommentLabelled(cs[i], out[i], order) {
      assert cs[i] == cs[1..][i - 1] && out[i] == rest[i - 1];
    }
  }

  lemma {:induction false} LabelCommentsCorrect(m: Numbers, done: seq<Author>, cs: seq<Comment>,
                                                whole: seq<Author>)
    requires Tracks(m, FirstSeen(done))
    requires done + Authors(cs) <= whole
    ensures Tracks(LabelComments(m, cs).1, FirstSeen(done + Authors(cs)))
    ensures ThreadLabelled(cs, LabelComments(m, cs).0, FirstSeen(whole))
    decreases |cs|
  {
    if |cs| > 0 {
      var c := cs[0];
      var a := CommentAuthor(c);
      var m1 := Assign(m, a).1;
      var m2 := LabelReplies(m1, c.replies).1;
      var done1 := done + [a];
      var done2 := done1 + ReplyAuthors(c.replies);
      AuthorsCons(done, cs);
      assert done1 <= whole by {
        assert done1 <= done2;
        assert done2 <= done + Authors(cs);
      }
      AssignTracks(m, done, a);
      ExpectedStable(done1, whole, a);
      LabelRepliesCorrect(m1, done1, c.replies, whole);
      LabelCommentsCorrect(m2, done2, cs[1..], whole);
      var head := c.(anonymousNumber := Some(Assign(m, a).0), replies := LabelReplies(m1, c.replies).0);
      assert LabelComments(m, cs).0 == [head] + LabelComments(m2, cs[1..]).0;
      assert CommentLabelled(c, head, FirstSeen(whole));
      ThreadLabelledCons(cs, head, LabelComments(m2, cs[1..]).0, FirstSeen(whole));
    } else {
      assert done + Authors(cs) == done;
    }
  }

  // ---------------------------------------------------------------------
  // The anonymiser and its properties

  /** The anonymised thread: every comment and every reply gets the label
      its author's first appearance prescribes; nothing else changes. */
  function Anonymise(cs: seq<Comment>): (out: seq<Comment>)
    ensures ThreadLabelled(cs, out, Order(cs))
  {
    var none: seq<Author> := [];
    assert none + Authors(cs) == Authors(cs);
    LabelCommentsCorrect(map[], none, cs, Authors(cs));
    LabelComments(map[], cs).0
  }

  /** The number map the walk ends with holds exactly the users of the
      first-appearance order, numbered by their place in it. */
  lemma FinalNumbers(cs: seq<Comment>)
    ensures Tracks(LabelComments(map[], cs).1, Order(cs))
  {
    var none: seq<Author> := [];
    assert none + Authors(cs) == Authors(cs);
    LabelCommentsCorrect(map[], none, cs, Authors(cs));
  }

  /** The order lists no user twice. */
  lemma {:induction false} FirstSeenDistinct(ws: seq<Author>)
    ensures forall i, j :: 0 <= i < j < |FirstSeen(ws)| ==> FirstSeen(ws)[i] != FirstSeen(ws)[j]
    decreases |ws|
  {
    if |ws| > 0 {
      FirstSeenDistinct(ws[..|ws| - 1]);
    }
  }

  /** The order holds exactly the users with an entry not written by the
      feed's author. */
  lemma {:induction false} FirstSeenMembers(ws: seq<Author>)
    ensures forall u :: u in FirstSeen(ws) <==> Author(u, false) in ws
    decreases |ws|
  {
    if |ws| > 0 {
      var init := ws[..|ws| - 1];
      FirstSeenMembers(init);
      assert ws == init + [ws[|ws| - 1]];
    }
  }

  /** The users other than the feed's author met in `ws`. */
  ghost function Users(ws: seq<Author>): set<UserId> {
    set a | a in ws && !a.feedWriter :: a.user
  }

  lemma {:induction false} FirstSeenCountsUsers(ws: seq<Author>)
    ensures |FirstSeen(ws)| == |Users(ws)|
    decreases |ws|
  {
    if |ws| > 0 {
      var init := ws[..|ws| - 1];
      var a := ws[|ws| - 1];
      FirstSeenCountsUsers(init);
      FirstSeenMembers(init);
      assert ws == init + [a];
      assert forall x :: x in ws <==> x in init || x == a;
      if a.feedWriter || a.user in FirstSeen(init) {
        assert Users(ws) == Users(init);
      } else {
        assert a.user !in Users(init);
        assert Users(ws) == Users(init) + {a.user};
      }
    }
  }

  /** Numbers are handed out in order of first appearance: the entry where a
      user other than the feed's author is first met gets one more than
      the number of such users met before it. */
  lemma FirstAppearanceGetsNextNumber(cs: seq<Comment>, k: nat)
    requires k < |Authors(cs)|
    requires !Authors(cs)[k].feedWriter
    requires Authors(cs)[k].user !in Users(Authors(cs)[..k])
    ensures Expected(Order(cs), Authors(cs)[k]) == Numbered(|Users(Authors(cs)[..k])| + 1)
  {
    var ws := Authors(cs);
    var a := ws[k];
    var p := ws[..k];
    FirstSeenMembers(p);
    FirstSeenCountsUsers(p);
    assert Author(a.user, false) !in p;
    assert ws[..k + 1] == p + [a];
    FirstSeenAppend(p, a);
    var o := FirstSeen(p) + [a.user];
    assert forall i :: 0 <= i < |FirstSeen(p)| ==> o[i] != a.user;
    assert IndexOf(o, a.user) == |FirstSeen(p)|;
    ExpectedStable(ws[..k + 1], ws, a);
  }

  /** Two entries not written by the feed's author carry the same label
      exactly when they are by the same user. */
  lemma SameLabelIffSameUser(cs: seq<Comment>, a: Author, b: Author)
    requires a in Authors(cs) && b in Authors(cs)
    requires !a.feedWriter && !b.feedWriter
    ensures Expected(Order(cs), a) == Expected(Order(cs), b) <==> a.user == b.user
  {
    FirstSeenMembers(Authors(cs));
    assert a == Author(a.user, false) && b == Author(b.user, false);
  }

  /** The feed's author is always labelled as such and never numbered. */
  lemma WriterNeverNumbered(cs: seq<Comment>, a: Author)
    requires a.feedWriter
    ensures Expected(Order(cs), a) == Writer
  {
  }

  /** The numbers in use are exactly 1 to the number of users other than
      the feed's author. */
  lemma NumbersAreDense(cs: seq<Comment>)
    ensures forall a :: a in Authors(cs) && !a.feedWriter ==>
              Expected(Order(cs), a).Numbered? &&
              1 <= Expected(Order(cs), a).n <= |Users(Authors(cs))|
    ensures forall n :: 1 <= n <= |Users(Authors(cs))| ==>
              exists a :: a in Authors(cs) && !a.feedWriter && Expected(Order(cs), a) == Numbered(n)
  {
    var ws := Authors(cs);
    var o := Order(cs);
    FirstSeenMembers(ws);
    FirstSeenCountsUsers(ws);
    FirstSeenDistinct(ws);
    forall a | a in ws && !a.feedWriter
      ensures Expected(o, a).Numbered? && 1 <= Expected(o, a).n <= |Users(ws)|
    {
      assert a == Author(a.user, false);
    }
    forall n | 1 <= n <= |Users(ws)|
      ensures exists a :: a in ws && !a.feedWriter && Expected(o, a) == Numbered(n)
    {
      var u := o[n - 1];
      var a := Author(u, false);
      assert u in o;
      assert IndexOf(o, u) == n - 1;
      assert Expected(o, a) == Numbered(n);
    }
  }

  // ---------------------------------------------------------------------
  // Only `anonymous_number` changes, and running it again changes nothing

  function ClearReply(r: Reply): Reply {
    r.(anonymousNumber := None)
  }

  /** The thread with every `anonymous_number` removed. */
  function Clear(cs: seq<Comment>): seq<Comment> {
    seq(|cs|, i requires 0 <= i < |cs| =>
      cs[i].(anonymousNumber := None,
             replies := seq(|cs[i].replies|, j requires 0 <= j < |cs[i].replies| => ClearReply(cs[i].replies[j]))))
  }

  lemma {:induction false} AuthorsUnchanged(cs: seq<Comment>, out: seq<Comment>, order: seq<UserId>)
    requires ThreadLabelled(cs, out, order)
    ensures Authors(out) == Authors(cs)
    decreases |cs|
  {
    if |cs| > 0 {
      assert ThreadLabelled(cs[1..], out[1..], order) by {
        forall i | 0 <= i < |cs[1..]| ensures CommentLabelled(cs[1..][i], out[1..][i], order) {
          assert CommentLabelled(cs[i + 1], out[i + 1], order);
        }
      }
      AuthorsUnchanged(cs[1..], out[1..], order);
      assert CommentLabelled(cs[0], out[0], order);
      assert ReplyAuthors(out[0].replies) == ReplyAuthors(cs[0].replies);
    }
  }

  /** Anonymising leaves everything but `anonymous_number` as it was. */
  lemma OnlyLabelsChange(cs: seq<Comment>)
    ensures Clear(Anonymise(cs)) == Clear(cs)
  {
    var out := Anonymise(cs);
    forall i | 0 <= i < |cs| ensures Clear(out)[i] == Clear(cs)[i] {
      assert CommentLabelled(cs[i], out[i], Order(cs));
      assert Clear(out)[i].replies == Clear(cs)[i].replies;
    }
  }

  /** A thread is determined by its input and the order it is labelled by. */
  lemma LabelledUnique(cs: seq<Comment>, a: seq<Comment>, b: seq<Comment>, order: seq<UserId>)
    requires ThreadLabelled(cs, a, order) && ThreadLabelled(cs, b, order)
    ensures a == b
  {
    forall i | 0 <= i < |cs| ensures a[i] == b[i] {
      assert CommentLabelled(cs[i], a[i], order) && CommentLabelled(cs[i], b[i], order);
      assert a[i].replies == b[i].replies;
    }
  }

  /** Anonymising an already anonymised thread gives the same labels again. */
  lemma AnonymiseIdempotent(cs: seq<Comment>)
    ensures Anonymise(Anonymise(cs)) == Anonymise(cs)
  {
    var out := Anonymise(cs);
    var out2 := Anonymise(out);
    AuthorsUnchanged(cs, out, Order(cs));
    assert Order(out) == Order(cs);
    assert ThreadLabelled(cs, out2, Order(cs)) by {
      forall i | 0 <= i < |cs| ensures CommentLabelled(cs[i], out2[i], Order(cs)) {
        assert CommentLabelled(cs[i], out[i], Order(cs));
        assert CommentLabelled(out[i], out2[i], Order(cs));
      }
    }
    LabelledUnique(cs, out2, out, Order(cs));
  }

  // ---------------------------------------------------------------------
  // The label as text

  const WriterText: string := "익명(작성자)"
  const NumberedPrefix: string := "익명"

  /** The string stored under `anonymous_number`: "익명(작성자)" or
      f"익명{n}". */
  function LabelText(l: Label): string {
    match l
    case Writer => WriterText
    case Numbered(n) => NumberedPrefix + Text.NatToString(n)
  }

  /** Different labels never read the same. */
  lemma LabelTextInjective(a: Label, b: Label)
    ensures LabelText(a) == LabelText(b) <==> a == b
  {
    if a != b {
      if a.Numbered? && b.Numbered? {
        Text.NatToStringInjective(a.n, b.n);
        assert LabelText(a)[2..] == Text.NatToString(a.n);
        assert LabelText(b)[2..] == Text.NatToString(b.n);
      } else {
        var w := if a.Writer? then a else b;
        var o := if a.Writer? then b else a;
        assert LabelText(w)[2] == '(';
        assert LabelText(o)[2] == Text.NatToString(o.n)[0];
        assert Text.IsDigit(LabelText(o)[2]);
      }
    }
  }
}

=== FILE: entities.dfy ===
/** The rows the feed views read and write, as immutable records, and the
    store that holds one table of each. Only the columns the views look at
    are kept. */
module Entities {
  import opened Results
  import Text

  type UserId = int
  type GroupId = int
  type CategoryId = int
  type FeedId = int
  type CommentId = int

  /** A user: `group` is the user's group (possibly none) and `isStaff` the
      flag that lets a user read outside their group. */
  datatype User = User(id: UserId, group: Option<GroupId>, isStaff: bool)

  /** Who sent the request. */
  datatype Actor = Visitor | SignedIn(user: User)

  datatype Category = Category(id: CategoryId, group: GroupId, name: string)

  /** A feed row. `group` and `category` are nullable foreign keys;
      `visited` is a `PositiveIntegerField` with default 0. */
  datatype Feed = Feed(
    id: FeedId,
    owner: UserId,
    group: Option<GroupId>,
    category: Option<CategoryId>,
    createdAt: int,
    title: string,
    description: string,
    visited: nat)

  datatype CommentRow = CommentRow(id: CommentId, feed: FeedId, user: UserId, description: string)
  datatype RecommentRow = RecommentRow(id: int, comment: CommentId, user: UserId, description: string)
  datatype FeedLike = FeedLike(user: UserId, feed: FeedId)
  datatype CommentLike = CommentLike(user: UserId, comment: CommentId)
  datatype Image = Image(feed: FeedId, url: string)

  datatype Store = Store(
    feeds: seq<Feed>,
    categories: seq<Category>,
    comments: seq<CommentRow>,
    recomments: seq<RecommentRow>,
    feedLikes: seq<FeedLike>,
    commentLikes: seq<CommentLike>,
    images: seq<Image>)

  /** `Feed.objects.get(pk=id)`: the feed with that primary key, if any. */
  function FindFeed(feeds: seq<Feed>, id: FeedId): (r: Option<Feed>)
    ensures r.Some? ==> r.value in feeds && r.value.id == id
    ensures r.None? <==> forall f :: f in feeds ==> f.id != id
    decreases |feeds|
  {
    if |feeds| == 0 then None
    else if feeds[0].id == id then Some(feeds[0])
    else
      assert forall f :: f in feeds ==> f == feeds[0] || f in feeds[1..];
      FindFeed(feeds[1..], id)
  }

  /** `Category.objects.get(pk=id)`. */
  function FindCategory(categories: seq<Category>, id: CategoryId): (r: Option<Category>)
    ensures r.Some? ==> r.value in categories && r.value.id == id
    ensures r.None? <==> forall c :: c in categories ==> c.id != id
    decreases |categories|
  {
    if |categories| == 0 then None
    else if categories[0].id == id then Some(categories[0])
    else
      assert forall c :: c in categories ==> c == categories[0] || c in categories[1..];
      FindCategory(categories[1..], id)
  }

  /** `Comment.objects.get(pk=id)`. */
  function FindComment(comments: seq<CommentRow>, id: CommentId): (r: Option<CommentRow>)
    ensures r.Some? ==> r.value in comments && r.value.id == id
    ensures r.None? <==> forall c :: c in comments ==> c.id != id
    decreases |comments|
  {
    if |comments| == 0 then None
    else if comments[0].id == id then Some(comments[0])
    else
      assert forall c :: c in comments ==> c == comments[0] || c in comments[1..];
      FindComment(comments[1..], id)
  }

  /** The range of a primary key: every model uses a `BigAutoField`, a
      signed 64-bit column. */
  predicate IsKey(n: int) {
    -0x8000_0000_0000_0000 <= n < 0x8000_0000_0000_0000
  }

  /** A key has at most 19 digits, well within what `str()` and `int()`
      convert, so its text reads back as the key. */
  lemma KeyRoundTrip(n: int)
    requires IsKey(n)
    ensures Text.ParseInt(Text.IntToString(n)) == Some(n)
  {
    assert Text.Pow10(10) == 10_000_000_000;
    assert Text.Pow10(19) == 10_000_000_000_000_000_000;
    Text.NatToStringLength(if n < 0 then -n else n, 19);
    Text.IntToStringRoundTrip(n);
  }

  /** Primary keys are unique in the feed table. */
  predicate UniqueFeedIds(feeds: seq<Feed>) {
    forall i, j :: 0 <= i < j < |feeds| ==> feeds[i].id != feeds[j].id
  }
}

=== FILE: feed_attributes.dfy ===
/** The derived attributes of a feed (the properties of the `Feed` model):
    like count, comment count, most-liked comment and thumbnail, plus its
    string form and the defaults of a fresh row. The related rows are given
    as the store's tables. */
module FeedAttributes {
  import opened Results
  import opened Entities
  import Seqs

  /** `Feed.like_count`: the number of `Feedlike` rows pointing at the feed.
      Nothing in the schema stops a user liking twice, so this counts rows,
      not likers. */
  function LikeCount(likes: seq<FeedLike>, feed: FeedId): (n: nat)
    ensures n <= |likes|
    ensures n == |Seqs.Filter(likes, LikeOf(feed))|
    ensures n == 0 <==> forall l :: l in likes ==> l.feed != feed
    decreases |likes|
  {
    if |likes| == 0 then 0
    else
      var init := likes[..|likes| - 1];
      assert forall l :: l in likes ==> l in init || l == likes[|likes| - 1];
      LikeCount(init, feed) + (if likes[|likes| - 1].feed == feed then 1 else 0)
  }

  /** The filter `feed=feed` on the like table. */
  function LikeOf(feed: FeedId): FeedLike -> bool {
    (l: FeedLike) => l.feed == feed
  }

  /** The set of users who like the feed. */
  ghost function Likers(likes: seq<FeedLike>, feed: FeedId): set<UserId> {
    set l | l in likes && l.feed == feed :: l.user
  }

  /** When no `(user, feed)` pair is stored twice, the like count is the
      number of distinct likers. */
  lemma {:induction false} LikeCountCountsLikers(likes: seq<FeedLike>, feed: FeedId)
    requires forall i, j :: 0 <= i < j < |likes| ==> likes[i] != likes[j]
    ensures LikeCount(likes, feed) == |Likers(likes, feed)|
    decreases |likes|
  {
    if |likes| > 0 {
      var init := likes[..|likes| - 1];
      var last := likes[|likes| - 1];
      LikeCountCountsLikers(init, feed);
      assert forall l :: l in likes <==> l in init || l == last;
      if last.feed == feed {
        forall i | 0 <= i < |init|
          ensures init[i].feed == feed ==> init[i].user != last.user
        {
          assert init[i] == likes[i] != last;
        }
        assert last.user !in Likers(init, feed);
        assert Likers(likes, feed) == Likers(init, feed) + {last.user};
      } else {
        assert Likers(likes, feed) == Likers(init, feed);
      }
    }
  }

  /** `Feed.comments_count`: the number of comments of the feed. */
  function CommentsCount(comments: seq<CommentRow>, feed: FeedId): (n: nat)
    ensures n == |Seqs.Filter(comments, OnFeed(feed))|
    ensures n == 0 <==> forall c :: c in comments ==> c.feed != feed
  {
    Seqs.CountIsFilterLength(comments, OnFeed(feed));
    Seqs.FilterMembers(comments, OnFeed(feed));
    var r := Seqs.Filter(comments, OnFeed(feed));
    assert |r| > 0 ==> r[0] in r;
    Seqs.Count(comments, OnFeed(feed))
  }

  /** The filter `feed=feed` on the comment table. */
  function OnFeed(feed: FeedId): CommentRow -> bool {
    (c: CommentRow) => c.feed == feed
  }

  /** With comment rows stored once each, the comment count is the size of
      the feed's set of comments. */
  lemma CommentsCountIsSetSize(comments: seq<CommentRow>, feed: FeedId)
    requires forall i, j :: 0 <= i < j < |comments| ==> comments[i] != comments[j]
    ensures CommentsCount(comments, feed) == |set c | c in comments && c.feed == feed|
  {
    var p := OnFeed(feed);
    Seqs.CountDistinct(comments, p);
    assert forall c :: p(c) <==> c.feed == feed;
    assert (set c | c in comments && c.feed == feed) == Seqs.Members(comments, p);
  }

  /** The like count a comment is annotated with: `Count("commentlike")`. */
  function CommentLikeCount(likes: seq<CommentLike>, comment: CommentId): nat {
    Seqs.Count(likes, (l: CommentLike) => l.comment == comment)
  }

  /** `Feed.highest_like_comments`: the feed's comments ordered by like
      count, descending, cut to one. At most one comment; none exactly when
      the feed has no comment; otherwise one of the feed's comments that no
      other comment of the feed beats on likes. */
  function HighestLikeComments(comments: seq<CommentRow>, likes: seq<CommentLike>, feed: FeedId)
    : (r: seq<CommentRow>)
    ensures |r| <= 1
    ensures |r| == 0 <==> forall c :: c in comments ==> c.feed != feed
    ensures |r| == 1 ==> r[0] in comments && r[0].feed == feed
    ensures |r| == 1 ==> forall c :: c in comments && c.feed == feed ==>
              CommentLikeCount(likes, c.id) <= CommentLikeCount(likes, r[0].id)
  {
    var mine := Seqs.Filter(comments, OnFeed(feed));
    Seqs.FilterMembers(comments, OnFeed(feed));
    if |mine| == 0 then
      []
    else
      [Seqs.MaxBy(mine, (c: CommentRow) => CommentLikeCount(likes, c.id))]
  }

  /** `Feed.thumbnail`: the url of the feed's first image, or `None` when it
      has none. */
  function Thumbnail(images: seq<Image>, feed: FeedId): (r: Option<string>)
    ensures r.None? <==> forall im :: im in images ==> im.feed != feed
    ensures r.Some? ==> exists i :: 0 <= i < |images| && images[i] == Image(feed, r.value)
                          && forall j :: 0 <= j < i ==> images[j].feed != feed
    decreases |images|
  {
    if |images| == 0 then None
    else if images[0].feed == feed then Some(images[0].url)
    else
      var rest := Thumbnail(images[1..], feed);
      assert forall im :: im in images ==> im == images[0] || im in images[1..];
      if rest.Some? then
        var i :| 0 <= i < |images[1..]| && images[1..][i] == Image(feed, rest.value)
                 && forall j :: 0 <= j < i ==> images[1..][j].feed != feed;
        assert images[i + 1] == Image(feed, rest.value);
        rest
      else rest
  }

  /** `Feed.__str__`: a feed reads as its title. */
  function FeedString(f: Feed): string {
    f.title
  }

  /** Two feeds read alike exactly when their titles are equal: no other
      column shows in the string form. */
  lemma FeedStringShowsTitleOnly(f: Feed, g: Feed)
    ensures FeedString(f) == FeedString(g) <==> f.title == g.title
    ensures FeedString(f.(title := g.title)) == FeedString(g)
  {
  }

  /** A freshly created feed row: `visited` starts at its default 0. */
  function NewFeed(id: FeedId, owner: UserId, group: Option<GroupId>, category: Option<CategoryId>,
                   createdAt: int, title: string, description: string): Feed
  {
    Feed(id, owner, group, category, createdAt, title, description, 0)
  }
}

=== FILE: pagination.dfy ===
/** The "clamp, then reject" pagination every listing view repeats: ask
    Django's `Paginator` for the requested page, fall back to the last page
    when it refuses, and then answer 400 if the page number as requested
    lies beyond the last page. The paginator is modelled with its defaults
    (`orphans=0`, `allow_empty_first_page=True`). */
module Pagination {
  import opened Results
  import Text
  import Seqs

  /** Page size of the unscoped feed list. */
  const GlobalPageSize: nat := 24
  /** Page size of the group/category list and of search results. */
  const GroupPageSize: nat := 12

  datatype Page<T> = Page(totalPages: nat, nowPage: nat, count: nat, results: seq<T>)

  function AtLeastOne(n: nat): nat {
    if n < 1 then 1 else n
  }

  /** `a * b` as repeated addition, so that page boundaries unfold one
      page at a time. */
  function Mul(a: nat, b: nat): nat {
    if a == 0 then 0 else Mul(a - 1, b) + b
  }

  lemma {:induction false} MulIsProduct(a: nat, b: nat)
    ensures Mul(a, b) == a * b
  {
    if a > 0 {
      MulIsProduct(a - 1, b);
    }
  }

  lemma {:induction false} MulMonotone(a: nat, b: nat, c: nat)
    requires a <= b
    ensures Mul(a, c) <= Mul(b, c)
    decreases b
  {
    if a < b {
      MulMonotone(a, b - 1, c);
    }
  }

  /** `Paginator.num_pages`: the number of pages of `perPage` items needed
      for `count` items, and 1 when there are none. */
  function NumPages(count: nat, perPage: nat): (n: nat)
    requires 0 < perPage
    ensures 1 <= n
    ensures Mul(n - 1, perPage) < AtLeastOne(count) <= Mul(n, perPage)
  {
    var h := AtLeastOne(count);
    var n := (h + perPage - 1) / perPage;
    var rem := (h + perPage - 1) % perPage;
    assert h + perPage - 1 == n * perPage + rem;
    assert (n - 1) * perPage == n * perPage - perPage;
    MulIsProduct(n - 1, perPage);
    MulIsProduct(n, perPage);
    n
  }

  /** The page number as the view reads it: `request.GET.get("page", 1)`,
      then `int()`. `None` is the `ValueError` of a non-numeric value. */
  function RequestedPage(arg: Option<string>): Option<int> {
    match arg
    case None => Some(1)
    case Some(s) => Text.ParseInt(s)
  }

  /** The page the `try: paginator.page(current_page) except:
      paginator.page(paginator.num_pages)` block ends up with. */
  function ServedPage(n: int, total: nat): (k: nat)
    requires 1 <= total
    ensures 1 <= k <= total
    ensures 1 <= n <= total ==> k == n
    ensures !(1 <= n <= total) ==> k == total
  {
    if 1 <= n <= total then n else total
  }

  /** `paginator.page(k).object_list`: the items at positions
      `(k-1)*perPage` up to, not including, `k*perPage`. */
  function PageSlice<T>(items: seq<T>, perPage: nat, k: nat): (r: seq<T>)
    requires 0 < perPage && 1 <= k <= NumPages(|items|, perPage)
    ensures Mul(k - 1, perPage) <= |items|
    ensures |r| == if Mul(k, perPage) <= |items| then perPage else |items| - Mul(k - 1, perPage)
    ensures forall i :: 0 <= i < |r| ==> r[i] == items[Mul(k - 1, perPage) + i]
  {
    MulMonotone(k - 1, NumPages(|items|, perPage) - 1, perPage);
    var lo := Mul(k - 1, perPage);
    assert lo + perPage == Mul(k, perPage);
    var hi := if lo + perPage >= |items| then |items| else lo + perPage;
    items[lo..hi]
  }

  /** `p` is page `n` of `items` as the view renders it: the paginator's
      totals, the requested number (the last page when `n` is below 1) and
      that page's run of items. */
  ghost predicate PageOf<T>(items: seq<T>, perPage: nat, n: int, p: Page<T>)
    requires 0 < perPage
  {
    && p.totalPages == NumPages(|items|, perPage)
    && p.count == |items|
    && p.nowPage == (if n >= 1 then n else p.totalPages)
    && 1 <= p.nowPage <= p.totalPages
    && p.results == PageSlice(items, perPage, p.nowPage)
  }

  /** `r` is what the pagination block answers for `arg` over `items`:
      200 exactly when the page number is numeric and at most `num_pages`;
      otherwise 500 for a non-numeric number and 400 for one too large. */
  ghost predicate Answers<T>(items: seq<T>, perPage: nat, arg: Option<string>, r: Response<Page<T>>)
    requires 0 < perPage
  {
    && (r.Ok? <==> RequestedPage(arg).Some? && RequestedPage(arg).value <= NumPages(|items|, perPage))
    && (r.Error? ==> r.status == if RequestedPage(arg).None? then ServerError else BadRequest)
    && (r.Ok? ==> PageOf(items, perPage, RequestedPage(arg).value, r.value))
  }

  /** Every page before the last is full, no page is longer than
      `perPage`, and the last page of a non-empty list is not empty. */
  lemma PageSizes<T>(items: seq<T>, perPage: nat, n: int, p: Page<T>)
    requires 0 < perPage && PageOf(items, perPage, n, p)
    ensures |p.results| <= perPage
    ensures p.nowPage < p.totalPages ==> |p.results| == perPage
    ensures |items| > 0 ==> |p.results| > 0
  {
    var k := p.nowPage;
    var total := p.totalPages;
    if k < total {
      MulMonotone(k, total - 1, perPage);
    }
  }

  /** The listing's answer for the raw `page` parameter `arg`:
      - a non-numeric page is an uncaught `ValueError` (500);
      - a page beyond the last one is a `ParseError` (400), although a
        fallback page was already fetched;
      - otherwise the requested page, or the last page when the requested
        number is below 1, with the paginator's totals. */
  function Paginate<T>(items: seq<T>, perPage: nat, arg: Option<string>): (r: Response<Page<T>>)
    requires 0 < perPage
    ensures RequestedPage(arg).None? ==> r == Error(ServerError)
    ensures RequestedPage(arg).Some? ==>
              (r.Error? <==> RequestedPage(arg).value > NumPages(|items|, perPage))
    ensures r.Error? ==> r.status == ServerError || r.status == BadRequest
    ensures Answers(items, perPage, arg, r)
    ensures r.Ok? ==> && r.value.totalPages == NumPages(|items|, perPage)
                      && r.value.count == |items|
                      && 1 <= r.value.nowPage <= r.value.totalPages
                      && (RequestedPage(arg).value >= 1 ==> r.value.nowPage == RequestedPage(arg).value)
                      && (RequestedPage(arg).value < 1 ==> r.value.nowPage == r.value.totalPages)
                      && r.value.results == PageSlice(items, perPage, r.value.nowPage)
  {
    var total := NumPages(|items|, perPage);
    match RequestedPage(arg)
    case None => Error(ServerError)
    case Some(n) =>
      var served := ServedPage(n, total);
      if n > total then Error(BadRequest)
      else Ok(Page(total, served, |items|, PageSlice(items, perPage, served)))
  }

  /** A page holds items of the list only, in the list's order: a page of a
      list sorted by descending `key` is sorted the same way. */
  lemma PageSliceWithin<T>(items: seq<T>, perPage: nat, k: nat, key: T -> int)
    requires 0 < perPage && 1 <= k <= NumPages(|items|, perPage)
    ensures forall x :: x in PageSlice(items, perPage, k) ==> x in items
    ensures Seqs.SortedDesc(items, key) ==> Seqs.SortedDesc(PageSlice(items, perPage, k), key)
  {
    var r := PageSlice(items, perPage, k);
    var lo := Mul(k - 1, perPage);
    forall x | x in r ensures x in items {
      var i :| 0 <= i < |r| && r[i] == x;
      assert items[lo + i] == x;
    }
    if Seqs.SortedDesc(items, key) {
      forall i, j | 0 <= i < j < |r| ensures key(r[i]) >= key(r[j]) {
        assert r[i] == items[lo + i] && r[j] == items[lo + j];
      }
    }
  }

  /** Pages 1 to `k`, one after the other. */
  function PagesUpTo<T>(items: seq<T>, perPage: nat, k: nat): seq<T>
    requires 0 < perPage && k <= NumPages(|items|, perPage)
  {
    if k == 0 then [] else PagesUpTo(items, perPage, k - 1) + PageSlice(items, perPage, k)
  }

  /** The first `k` pages are exactly the first `k * perPage` items. */
  lemma {:induction false} PagesUpToIsPrefix<T>(items: seq<T>, perPage: nat, k: nat)
    requires 0 < perPage && k <= NumPages(|items|, perPage)
    ensures Mul(k, perPage) <= |items| ==> PagesUpTo(items, perPage, k) == items[..Mul(k, perPage)]
    ensures Mul(k, perPage) > |items| ==> PagesUpTo(items, perPage, k) == items
  {
    if k > 0 {
      PagesUpToIsPrefix(items, perPage, k - 1);
      var lo := Mul(k - 1, perPage);
      var hi := Mul(k, perPage);
      var page := PageSlice(items, perPage, k);
      var end := if hi <= |items| then hi else |items|;
      assert lo <= |items| && hi == lo + perPage;
      assert |page| == end - lo;
      assert PagesUpTo(items, perPage, k - 1) == items[..lo];
      ConcatPage(items, lo, end, PagesUpTo(items, perPage, k - 1), page);
    }
  }

  /** The items before `lo` followed by the run from `lo` to `end` are the
      items before `end`. */
  lemma ConcatPage<T>(items: seq<T>, lo: nat, end: nat, prev: seq<T>, page: seq<T>)
    requires lo <= end <= |items| && prev == items[..lo]
    requires |page| == end - lo && forall i :: 0 <= i < |page| ==> page[i] == items[lo + i]
    ensures prev + page == items[..end]
  {
    assert page == items[lo..end];
  }

  /** Reading every page from 1 to `num_pages` in turn yields every item
      exactly once, in order. */
  lemma PagesCoverItems<T>(items: seq<T>, perPage: nat)
    requires 0 < perPage
    ensures PagesUpTo(items, perPage, NumPages(|items|, perPage)) == items
  {
    var n := NumPages(|items|, perPage);
    PagesUpToIsPrefix(items, perPage, n);
    if Mul(n, perPage) <= |items| {
      assert Mul(n, perPage) == |items|;
    }
  }

  /** A page number of more than 4300 digits is refused by the paginator,
      and the view's own `int()` then raises: a 500, never the 400 of an
      out-of-range page. */
  lemma OverlongPageIsServerError<T>(items: seq<T>, perPage: nat, s: string)
    requires 0 < perPage && |s| > Text.MaxDigits && Text.AllDigits(s)
    ensures Paginate(items, perPage, Some(s)) == Error(ServerError)
  {
    assert Text.DigitCount(s) == |s|;
  }

  /** Fifty feeds at 24 per page make three pages; page 1 holds 24 feeds,
      page 4 is rejected with 400, and page 0 falls back to the last page,
      which holds the remaining 2. */
  lemma FiftyFeedsAtTwentyFour<T>(items: seq<T>)
    requires |items| == 50
    ensures NumPages(|items|, GlobalPageSize) == 3
    ensures var r := Paginate(items, GlobalPageSize, Some("1"));
            r.Ok? && |r.value.results| == 24 && r.value.totalPages == 3 && r.value.nowPage == 1
    ensures Paginate(items, GlobalPageSize, Some("4")) == Error(BadRequest)
    ensures var r := Paginate(items, GlobalPageSize, Some("0"));
            r.Ok? && r.value.nowPage == 3 && r.value.results == items[48..]
  {
    assert Text.ParseInt("1") == Some(1);
    assert Text.ParseInt("4") == Some(4);
    assert Text.ParseInt("0") == Some(0);
    var r := Paginate(items, GlobalPageSize, Some("0"));
    assert |r.value.results| == 2;
  }
}

=== FILE: permissions.dfy ===
/** The permission checks of the feed views, as predicates of the user and
    the rows involved. They follow the code, which differs from the views'
    own documentation in places: creating a comment or a reply grants staff
    no bypass, and only the category listing compares the group as text. */
module Permissions {
  import opened Results
  import opened Entities
  import Text

  /** Reading a feed or its comments: same group (both possibly none), or
      staff. */
  predicate MayRead(u: User, f: Feed) {
    f.group == u.group || u.isStaff
  }

  /** Editing or deleting a feed: only its owner, whatever the group or
      staff flag. */
  predicate MayModify(u: User, f: Feed) {
    f.owner == u.id
  }

  /** Commenting on a feed or replying under it: same group, staff or not. */
  predicate MayComment(u: User, f: Feed) {
    f.group == u.group
  }

  /** The group check of the category listing: staff pass; anyone else
      passes when `str(request.user.group.pk)` equals the raw `group_id`
      text. A non-staff user without a group makes `.pk` fail with an
      `AttributeError` (500). */
  function GroupListingCheck(u: User, groupParam: Option<string>): (r: Response<()>)
    ensures r.Ok? <==> u.isStaff || (u.group.Some? && groupParam == Some(Text.IntToString(u.group.value)))
    ensures r == Error(ServerError) <==> !u.isStaff && u.group.None?
    ensures r.Error? ==> r.status == Forbidden || r.status == ServerError
  {
    if u.isStaff then Ok(())
    else if u.group.None? then Error(ServerError)
    else if groupParam != Some(Text.IntToString(u.group.value)) then Error(Forbidden)
    else Ok(())
  }

  /** A non-staff user who passes the category listing's group check has
      asked for their own group: `group_id` reads back, through `int()`, as
      the user's group key. */
  lemma ListingCheckPinsOwnGroup(u: User, groupParam: Option<string>)
    requires !u.isStaff && (u.group.Some? ==> IsKey(u.group.value))
    requires GroupListingCheck(u, groupParam).Ok?
    ensures groupParam.Some? && u.group.Some?
    ensures Text.ParseInt(groupParam.value) == Some(u.group.value)
  {
    KeyRoundTrip(u.group.value);
  }

  /** Whoever may comment on a feed may read it; staff may read every feed
      but comment only within their own group. */
  lemma CommentIsNarrowerThanRead(u: User, f: Feed)
    ensures MayComment(u, f) ==> MayRead(u, f)
    ensures u.isStaff ==> MayRead(u, f)
    ensures u.isStaff && f.group != u.group ==> !MayComment(u, f)
  {
  }

  /** Reading is allowed to exactly those who may comment, and to staff
      besides. */
  lemma ReadIsCommentOrStaff(u: User, f: Feed)
    ensures MayRead(u, f) <==> MayComment(u, f) || u.isStaff
  {
  }

  /** The comment check looks at the group alone: two users of the same
      group have the same comment rights whatever their staff flags, and a
      user with a group cannot comment on a feed without one. */
  lemma CommentDependsOnGroupOnly(u: User, v: User, f: Feed)
    ensures u.group == v.group ==> (MayComment(u, f) <==> MayComment(v, f))
    ensures u.group.Some? && f.group.None? ==> !MayComment(u, f)
  {
  }

  /** At most one user may edit or delete a given feed: its owner. */
  lemma OwnerOnly(u: User, v: User, f: Feed)
    ensures MayModify(u, f) && MayModify(v, f) ==> u.id == v.id
    ensures MayModify(u, f) <==> u.id == f.owner
  {
  }

  /** The ownership check ignores the user's group and staff flag. */
  lemma ModifyIgnoresGroupAndStaff(u: User, f: Feed, g: Option<GroupId>, staff: bool)
    ensures MayModify(u, f) <==> MayModify(u.(group := g, isStaff := staff), f)
  {
  }
}

=== FILE: queries.dfy ===
/** The feed selections of the group views: the category listing with its
    two reserved category names, the search suggestions and the full search.
    The feed table is a sequence; `order_by("-created_at")` and
    `order_by("-count_like")` are descending sorts. */
module Queries {
  import opened Results
  import opened Entities
  import Text
  import Seqs
  import FeedAttributes

  /** The reserved category name that lists every feed of the group. */
  const AllPosts: string := "전체글"
  /** The reserved category name that lists the group's feeds by likes. */
  const Popular: string := "인기글"
  /** How many suggestions the search box gets. */
  const SuggestionLimit: nat := 5

  /** `filter(group__pk=group_id)` for the raw `group_id` query value: a
      missing value selects the feeds without a group (`IS NULL`), a
      non-numeric one makes the lookup raise `ValueError` (500). */
  function GroupScope(groupParam: Option<string>): (r: Response<Option<GroupId>>)
    ensures groupParam.None? ==> r == Ok(None)
    ensures groupParam.Some? ==>
              (r.Ok? <==> Text.ParseInt(groupParam.value).Some?) &&
              (r.Ok? ==> r.value == Text.ParseInt(groupParam.value)) &&
              (r.Error? ==> r.status == ServerError)
  {
    match groupParam
    case None => Ok(None)
    case Some(s) =>
      match Text.ParseInt(s)
      case None => Error(ServerError)
      case Some(g) => Ok(Some(g))
  }

  function CreatedAt(f: Feed): int {
    f.createdAt
  }

  /** The like count a feed is annotated with: `Count("feedlike")`. */
  function LikesOf(likes: seq<FeedLike>): Feed -> int {
    (f: Feed) => FeedAttributes.LikeCount(likes, f.id)
  }

  /** Whether a feed is listed under `cat` within group `g`: the two reserved
      names drop the category filter, any other name keeps only that
      category's feeds. */
  predicate InCategoryListing(f: Feed, g: Option<GroupId>, cat: Category) {
    f.group == g && (cat.name == AllPosts || cat.name == Popular || f.category == Some(cat.id))
  }

  /** The feeds of the category listing, before pagination:
      - "전체글": every feed of the group, newest first;
      - "인기글": every feed of the group, most liked first;
      - any other category: the group's feeds of that category, newest
        first. */
  function CategoryFeeds(feeds: seq<Feed>, likes: seq<FeedLike>, g: Option<GroupId>, cat: Category)
    : (r: seq<Feed>)
    ensures forall f :: f in r <==> f in feeds && InCategoryListing(f, g, cat)
    ensures forall f :: multiset(r)[f] == if InCategoryListing(f, g, cat) then multiset(feeds)[f] else 0
    ensures cat.name == Popular ==> Seqs.SortedDesc(r, LikesOf(likes))
    ensures cat.name != Popular ==> Seqs.SortedDesc(r, CreatedAt)
  {
    var p := (f: Feed) => InCategoryListing(f, g, cat);
    var selected := Seqs.Filter(feeds, p);
    Seqs.FilterMembers(feeds, p);
    var key := if cat.name == Popular then LikesOf(likes) else CreatedAt;
    Seqs.SortMembers(selected, key);
    Seqs.SortDesc(selected, key)
  }

  /** `title__icontains=keyword`. */
  predicate TitleMatches(f: Feed, keyword: string) {
    Text.ContainsFolded(f.title, keyword)
  }

  /** `Q(title__icontains=keyword) | Q(description__icontains=keyword)`. */
  predicate TitleOrDescriptionMatches(f: Feed, keyword: string) {
    Text.ContainsFolded(f.title, keyword) || Text.ContainsFolded(f.description, keyword)
  }

  /** A feed the search box may suggest: of group `g`, with the keyword in
      its title. */
  predicate Suggestible(f: Feed, g: Option<GroupId>, keyword: string) {
    f.group == g && TitleMatches(f, keyword)
  }

  /** The filter behind the search suggestions. */
  function SuggestibleIn(g: Option<GroupId>, keyword: string): Feed -> bool {
    (f: Feed) => Suggestible(f, g, keyword)
  }

  /** The feeds behind the search suggestions: the group's feeds whose title
      contains the keyword, newest first, cut to five. Each matching row
      appears at most as often as it is stored, and five are shown unless
      fewer match. */
  function SuggestedFeeds(feeds: seq<Feed>, g: Option<GroupId>, keyword: string): (r: seq<Feed>)
    ensures |r| <= SuggestionLimit
    ensures forall f :: f in r ==> f in feeds && f.group == g && TitleMatches(f, keyword)
    ensures forall f :: multiset(r)[f] <= if Suggestible(f, g, keyword) then multiset(feeds)[f] else 0
    ensures var n := |Seqs.Filter(feeds, SuggestibleIn(g, keyword))|;
            |r| == if n < SuggestionLimit then n else SuggestionLimit
    ensures Seqs.SortedDesc(r, CreatedAt)
  {
    var p := SuggestibleIn(g, keyword);
    var matches := Seqs.SortDesc(Seqs.Filter(feeds, p), CreatedAt);
    Seqs.FilterMembers(feeds, p);
    Seqs.SortMembers(Seqs.Filter(feeds, p), CreatedAt);
    Seqs.Take(matches, SuggestionLimit)
  }

  /** No matching feed is left out of the suggestions while an older one is
      shown, and when fewer than five are shown, every match is. */
  lemma SuggestionsAreTheNewestMatches(feeds: seq<Feed>, g: Option<GroupId>, keyword: string, h: Feed)
    requires h in feeds && h.group == g && TitleMatches(h, keyword)
    ensures var r := SuggestedFeeds(feeds, g, keyword);
            (|r| < SuggestionLimit ==> h in r) &&
            (h !in r ==> forall x :: x in r ==> h.createdAt <= x.createdAt)
  {
    var p := SuggestibleIn(g, keyword);
    var matches := Seqs.SortDesc(Seqs.Filter(feeds, p), CreatedAt);
    Seqs.FilterMembers(feeds, p);
    Seqs.SortMembers(Seqs.Filter(feeds, p), CreatedAt);
    Seqs.TakeKeepsLargest(matches, SuggestionLimit, CreatedAt, h);
  }

  /** The feeds of the full search: the group's feeds whose title or
      description contains the keyword, newest first. */
  function SearchFeeds(feeds: seq<Feed>, g: Option<GroupId>, keyword: string): (r: seq<Feed>)
    ensures forall f :: f in r <==> f in feeds && f.group == g && TitleOrDescriptionMatches(f, keyword)
    ensures forall f :: multiset(r)[f] ==
              if f.group == g && TitleOrDescriptionMatches(f, keyword) then multiset(feeds)[f] else 0
    ensures Seqs.SortedDesc(r, CreatedAt)
  {
    var p := (f: Feed) => f.group == g && TitleOrDescriptionMatches(f, keyword);
    Seqs.FilterMembers(feeds, p);
    Seqs.SortMembers(Seqs.Filter(feeds, p), CreatedAt);
    Seqs.SortDesc(Seqs.Filter(feeds, p), CreatedAt)
  }

  /** Every suggestion is also a full-search result. */
  lemma SuggestionsWithinSearch(feeds: seq<Feed>, g: Option<GroupId>, keyword: string)
    ensures forall f :: f in SuggestedFeeds(feeds, g, keyword) ==> f in SearchFeeds(feeds, g, keyword)
  {
  }
}

=== FILE: results.dfy ===
/** Outcome types shared by the whole model: an optional value, the HTTP
    statuses the feed views can answer with, and a response carrying either a
    value (status 200) or one of those error statuses. */
module Results {

  datatype Option<+T> = None | Some(value: T)

  /** The error statuses a feed view can end in.
      - BadRequest: `ParseError` or an invalid serializer (400)
      - Forbidden: `PermissionDenied` or an unauthenticated request (403)
      - NotFound: `get_object_or_404` found nothing (404)
      - ServerError: an exception the view does not catch, such as the
        `ValueError` of `int()` on a non-numeric page (500) */
  datatype Status = BadRequest | Forbidden | NotFound | ServerError

  /** What an HTTP status code an error stands for. */
  function Code(s: Status): (c: nat)
    ensures 400 <= c < 600
    ensures c < 500 <==> !s.ServerError?
  {
    match s
    case BadRequest => 400
    case Forbidden => 403
    case NotFound => 404
    case ServerError => 500
  }

  datatype Response<+T> = Ok(value: T) | Error(status: Status)
}

=== FILE: seqs.dfy ===
/** Sequence operations standing in for the ORM's `filter`, `count`,
    `order_by("-key")` and `[:k]` over an in-memory table. */
module Seqs {

  /** The elements of `s` satisfying `p`, in their original order. */
  function Filter<T(!new)>(s: seq<T>, p: T -> bool): (r: seq<T>)
    ensures |r| <= |s|
    ensures forall x :: multiset(r)[x] == if p(x) then multiset(s)[x] else 0
    decreases |s|
  {
    if |s| == 0 then []
    else
      var init := Filter(s[..|s| - 1], p);
      assert s == s[..|s| - 1] + [s[|s| - 1]];
      if p(s[|s| - 1]) then init + [s[|s| - 1]] else init
  }

  lemma FilterMembers<T(!new)>(s: seq<T>, p: T -> bool)
    ensures forall x :: x in Filter(s, p) <==> x in s && p(x)
  {
    var r := Filter(s, p);
    forall x
      ensures x in r <==> x in s && p(x)
    {
      assert x in r <==> multiset(r)[x] > 0;
      assert x in s <==> multiset(s)[x] > 0;
    }
  }

  /** The number of elements of `s` satisfying `p` (`.count()` of a filtered
      queryset). */
  function Count<T>(s: seq<T>, p: T -> bool): (n: nat)
    ensures n <= |s|
    decreases |s|
  {
    if |s| == 0 then 0
    else Count(s[..|s| - 1], p) + (if p(s[|s| - 1]) then 1 else 0)
  }

  /** Counting is the size of the filtered sequence. */
  lemma {:induction false} CountIsFilterLength<T(!new)>(s: seq<T>, p: T -> bool)
    ensures Count(s, p) == |Filter(s, p)|
    decreases |s|
  {
    if |s| > 0 {
      CountIsFilterLength(s[..|s| - 1], p);
    }
  }

  /** Counting the rows of a table without duplicate rows is the size of the
      set of rows that satisfy `p`. */
  lemma {:induction false} CountDistinct<T(!new)>(s: seq<T>, p: T -> bool)
    requires forall i, j :: 0 <= i < j < |s| ==> s[i] != s[j]
    ensures Count(s, p) == |Members(s, p)|
    decreases |s|
  {
    if |s| > 0 {
      var init := s[..|s| - 1];
      var last := s[|s| - 1];
      CountDistinct(init, p);
      var a := Members(init, p);
      var b := Members(s, p);
      assert last !in init;
      if p(last) {
        assert b == a + {last};
      } else {
        assert b == a;
      }
    }
  }

  /** The set of elements of `s` satisfying `p`. */
  ghost function Members<T(!new)>(s: seq<T>, p: T -> bool): set<T> {
    set x | x in s && p(x)
  }

  predicate SortedDesc<T>(s: seq<T>, key: T -> int) {
    forall i, j :: 0 <= i < j < |s| ==> key(s[i]) >= key(s[j])
  }

  /** Places `x` into the descending sequence `s` before the first element
      whose key it is at least as large as. */
  function Insert<T(!new)>(x: T, s: seq<T>, key: T -> int): (r: seq<T>)
    requires SortedDesc(s, key)
    ensures SortedDesc(r, key)
    ensures multiset(r) == multiset(s) + multiset{x}
    ensures |r| == |s| + 1
    decreases |s|
  {
    if |s| == 0 then [x]
    else if key(x) >= key(s[0]) then [x] + s
    else
      var rest := Insert(x, s[1..], key);
      assert s == [s[0]] + s[1..];
      BoundedByHead(s, x, rest, key);
      ConsSorted(s[0], rest, key);
      [s[0]] + rest
  }

  /** What is inserted into the tail of a descending `s`, below its head,
      stays below its head. */
  lemma BoundedByHead<T>(s: seq<T>, x: T, rest: seq<T>, key: T -> int)
    requires |s| > 0 && SortedDesc(s, key) && key(x) < key(s[0])
    requires multiset(rest) == multiset(s[1..]) + multiset{x}
    ensures forall i :: 0 <= i < |rest| ==> key(rest[i]) <= key(s[0])
  {
    forall i | 0 <= i < |rest| ensures key(rest[i]) <= key(s[0]) {
      assert rest[i] in multiset(rest);
      if rest[i] != x {
        assert rest[i] in multiset(s[1..]);
        var j :| 0 <= j < |s[1..]| && s[1..][j] == rest[i];
        assert s[j + 1] == rest[i];
      }
    }
  }

  /** A head at least as large as everything after it extends a descending
      sequence. */
  lemma ConsSorted<T>(h: T, rest: seq<T>, key: T -> int)
    requires SortedDesc(rest, key)
    requires forall i :: 0 <= i < |rest| ==> key(rest[i]) <= key(h)
    ensures SortedDesc([h] + rest, key)
  {
    var r := [h] + rest;
    assert forall i :: 0 < i < |r| ==> r[i] == rest[i - 1];
  }

  /** `order_by("-key")`: a permutation of `s` in descending order of `key`.
      The database leaves the order among equal keys unspecified; this
      sort is one admissible choice. */
  function SortDesc<T(!new)>(s: seq<T>, key: T -> int): (r: seq<T>)
    ensures SortedDesc(r, key)
    ensures multiset(r) == multiset(s)
    ensures |r| == |s|
    decreases |s|
  {
    if |s| == 0 then []
    else
      assert s == [s[0]] + s[1..];
      Insert(s[0], SortDesc(s[1..], key), key)
  }

  lemma SortMembers<T(!new)>(s: seq<T>, key: T -> int)
    ensures forall x :: x in SortDesc(s, key) <==> x in s
  {
    var r := SortDesc(s, key);
    forall x
      ensures x in r <==> x in s
    {
      assert x in r <==> multiset(r)[x] > 0;
      assert x in s <==> multiset(s)[x] > 0;
    }
  }

  /** `[:k]` on a queryset: at most the first `k` elements. */
  function Take<T>(s: seq<T>, k: nat): (r: seq<T>)
    ensures |r| == if |s| < k then |s| else k
    ensures r <= s
    ensures multiset(r) <= multiset(s)
  {
    if |s| < k then s
    else
      assert s == s[..k] + s[k..];
      s[..k]
  }

  /** The first `k` of a descending sequence are its largest: an element
      left out is no larger than any element kept, and nothing is left out
      when fewer than `k` are kept. */
  lemma TakeKeepsLargest<T>(s: seq<T>, k: nat, key: T -> int, h: T)
    requires SortedDesc(s, key) && h in s
    ensures |Take(s, k)| < k ==> h in Take(s, k)
    ensures h !in Take(s, k) ==> forall x :: x in Take(s, k) ==> key(h) <= key(x)
  {
    var r := Take(s, k);
    if h !in r {
      var n :| 0 <= n < |s| && s[n] == h;
      assert |r| == k && r == s[..k];
      assert forall i :: 0 <= i < k ==> s[i] == r[i] && r[i] in r;
      assert k <= n;
      forall x | x in r ensures key(h) <= key(x) {
        var i :| 0 <= i < |r| && r[i] == x;
        assert s[i] == x;
      }
    }
  }

  /** An element of the non-empty `s` whose key is at least every other
      element's; the first such one. */
  function MaxBy<T(!new)>(s: seq<T>, key: T -> int): (r: T)
    requires 0 < |s|
    ensures r in s
    ensures forall y :: y in s ==> key(y) <= key(r)
    decreases |s|
  {
    if |s| == 1 then s[0]
    else
      var best := MaxBy(s[1..], key);
      assert forall y :: y in s ==> y == s[0] || y in s[1..];
      if key(s[0]) >= key(best) then s[0] else best
  }
}

=== FILE: text.dfy ===
/** The few string operations the feed views rely on: Python's `str()` and
    `int()` on integers (decimal rendering and parsing), and the
    case-insensitive substring test behind Django's `icontains` lookup. */
module Text {
  import opened Results

  predicate IsDigit(c: char) {
    '0' <= c <= '9'
  }

  predicate AllDigits(s: string) {
    forall i :: 0 <= i < |s| ==> IsDigit(s[i])
  }

  function DigitChar(d: nat): (c: char)
    requires d < 10
    ensures IsDigit(c)
  {
    (('0' as int) + d) as char
  }

  function DigitValue(c: char): (d: nat)
    requires IsDigit(c)
    ensures d < 10 && DigitChar(d) == c
  {
    (c as int) - ('0' as int)
  }

  /** `str(n)` for a non-negative integer: its decimal digits, most
      significant first, without leading zeros. */
  function NatToString(n: nat): (s: string)
    ensures 1 <= |s|
    ensures AllDigits(s)
    ensures |s| > 1 ==> s[0] != '0'
    decreases n
  {
    if n < 10 then [DigitChar(n)] else NatToString(n / 10) + [DigitChar(n % 10)]
  }

  /** The value of a string of decimal digits (the empty string reads as 0). */
  function DigitsValue(s: string): nat
    requires AllDigits(s)
    decreases |s|
  {
    if |s| == 0 then 0 else DigitsValue(s[..|s| - 1]) * 10 + DigitValue(s[|s| - 1])
  }

  /** Reading back the decimal rendering of `n` gives `n`. */
  lemma {:induction false} NatToStringRoundTrip(n: nat)
    ensures DigitsValue(NatToString(n)) == n
    decreases n
  {
    if n >= 10 {
      NatToStringRoundTrip(n / 10);
      var s := NatToString(n);
      assert s[..|s| - 1] == NatToString(n / 10);
      assert DigitValue(s[|s| - 1]) == n % 10;
    }
  }

  /** Distinct numbers have distinct decimal renderings. */
  lemma NatToStringInjective(a: nat, b: nat)
    ensures NatToString(a) == NatToString(b) <==> a == b
  {
    if NatToString(a) == NatToString(b) {
      NatToStringRoundTrip(a);
      NatToStringRoundTrip(b);
    }
  }

  /** `str(n)` for any integer. */
  function IntToString(n: int): string {
    if n < 0 then "-" + NatToString(-n) else NatToString(n)
  }

  /** An optional sign followed by at least one ASCII digit. */
  predicate IsDecimal(s: string) {
    || (1 <= |s| && AllDigits(s))
    || (2 <= |s| && (s[0] == '-' || s[0] == '+') && AllDigits(s[1..]))
  }

  /** The most digits Python's `int()` and `str()` convert between text and
      integer (`sys.int_info.default_max_str_digits`); beyond it they raise
      `ValueError`. */
  const MaxDigits: nat := 4300

  /** The number of digits of a decimal string: its length without the
      sign. */
  function DigitCount(s: string): nat {
    if |s| > 0 && (s[0] == '-' || s[0] == '+') then |s| - 1 else |s|
  }

  /** 10 to the power `k`. */
  function Pow10(k: nat): nat {
    if k == 0 then 1 else 10 * Pow10(k - 1)
  }

  /** Python's `int(s)` on a query-string value: an optional sign followed by
      at least one and at most 4300 ASCII digits. `None` stands for the
      `ValueError` it raises on anything else. */
  function ParseInt(s: string): (r: Option<int>)
    ensures r.Some? <==> IsDecimal(s) && DigitCount(s) <= MaxDigits
    ensures r.Some? && s[0] != '-' ==> r.value >= 0
    ensures r.Some? && s[0] == '-' ==> r.value <= 0
    ensures r.Some? && AllDigits(s) ==> r.value == DigitsValue(s)
    ensures r.Some? && !AllDigits(s) ==>
              AllDigits(s[1..]) &&
              r.value == if s[0] == '-' then -(DigitsValue(s[1..]) as int) else DigitsValue(s[1..])
  {
    if |s| == 0 || DigitCount(s) > MaxDigits then None
    else if (s[0] == '-' || s[0] == '+') && 1 < |s| && AllDigits(s[1..]) then
      var v: int := DigitsValue(s[1..]);
      if s[0] == '-' then Some(-v) else Some(v)
    else if AllDigits(s) then Some(DigitsValue(s))
    else None
  }

  /** Non-canonical forms read as Python reads them: a plus sign and
      leading zeros are accepted and do not change the value; more than
      4300 digits, leading zeros included, are refused. */
  lemma ParseIntSignedForms(long: string)
    requires |long| == MaxDigits + 1 && AllDigits(long)
    ensures ParseInt("+7") == Some(7)
    ensures ParseInt("-012") == Some(-12)
    ensures ParseInt("007") == Some(7)
    ensures ParseInt("-") == None && ParseInt("+") == None && ParseInt("") == None
    ensures ParseInt(long) == None && ParseInt("-" + long) == None
    ensures ParseInt(long[1..]) == Some(DigitsValue(long[1..]))
  {
    assert ("-" + long)[1..] == long;
    assert AllDigits("7") && DigitsValue("7") == 7;
    assert "-012"[1..] == "012" && "012"[..2] == "01" && "01"[..1] == "0";
    assert "007"[..2] == "00" && "00"[..1] == "0";
  }

  /** A number below `10^k` has at most `k` digits. */
  lemma {:induction false} NatToStringLength(n: nat, k: nat)
    requires 1 <= k && n < Pow10(k)
    ensures |NatToString(n)| <= k
    decreases n
  {
    if n >= 10 {
      assert k >= 2;
      NatToStringLength(n / 10, k - 1);
    }
  }

  /** `int(str(n)) == n` for every integer whose rendering `str()` itself
      accepts, that is of at most 4300 digits. */
  lemma IntToStringRoundTrip(n: int)
    requires |NatToString(if n < 0 then -n else n)| <= MaxDigits
    ensures ParseInt(IntToString(n)) == Some(n)
  {
    var s := IntToString(n);
    if n < 0 {
      NatToStringRoundTrip(-n);
      assert s[1..] == NatToString(-n);
    } else {
      NatToStringRoundTrip(n);
    }
  }

  /** ASCII case folding. The database's own folding of non-ASCII letters
      under `icontains` is not modelled. */
  function Fold(c: char): (f: char)
    ensures 'A' <= c <= 'Z' ==> 'a' <= f <= 'z' && f as int == c as int + 32
    ensures !('A' <= c <= 'Z') ==> f == c
  {
    if 'A' <= c <= 'Z' then (c as int + 32) as char else c
  }

  /** `keyword` occurs in `text` at position `i`, ignoring case. */
  predicate MatchesAt(text: string, keyword: string, i: nat) {
    i + |keyword| <= |text| &&
    forall j :: 0 <= j < |keyword| ==> Fold(text[i + j]) == Fold(keyword[j])
  }

  /** `text` starts with `keyword`, ignoring case. */
  function StartsWithFolded(text: string, keyword: string): (b: bool)
    ensures b <==> MatchesAt(text, keyword, 0)
    decreases |keyword|
  {
    if |keyword| == 0 then true
    else if |text| == 0 then false
    else Fold(text[0]) == Fold(keyword[0]) && StartsWithFolded(text[1..], keyword[1..])
  }

  /** Django's `text__icontains=keyword`: `keyword` is a substring of `text`
      once both are case folded. */
  function ContainsFolded(text: string, keyword: string): (b: bool)
    ensures b <==> exists i: nat :: MatchesAt(text, keyword, i)
    decreases |text|
  {
    if StartsWithFolded(text, keyword) then true
    else if |text| == 0 then false
    else
      var rest := ContainsFolded(text[1..], keyword);
      ShiftMatch(text, keyword);
      rest
  }

  /** A match in `text[1..]` is a match in `text` one position later, and a
      match in `text` other than at 0 comes from one in `text[1..]`. */
  lemma ShiftMatch(text: string, keyword: string)
    requires 0 < |text|
    ensures forall i: nat :: MatchesAt(text[1..], keyword, i) ==> MatchesAt(text, keyword, i + 1)
    ensures forall i: nat :: 1 <= i && MatchesAt(text, keyword, i) ==> MatchesAt(text[1..], keyword, i - 1)
  {
  }
}

=== FILE: views.dfy ===
/** The request handlers of the feed API, each a total function of the store,
    the requesting actor and the raw request parameters. A handler that
    writes returns the new store next to its response. What the serializers
    decide (whether a body is valid, the `feed_writer` flag of a comment)
    arrives as an input. */
module FeedViews {
  import opened Results
  import opened Entities
  import Text
  import Seqs
  import Pagination
  import Permissions
  import Queries
  import Anonymiser
  import FeedAttributes

  /** A response together with the store after the request. */
  datatype Outcome<T> = Outcome(response: Response<T>, store: Store)

  /** One search suggestion: `{"id": feed.pk, "title": feed.title}`. */
  datatype Suggestion = Suggestion(id: FeedId, title: string)

  /** `Feeds.get`: every feed, newest first, 24 per page. The view is open
      to visitors (`IsAuthenticatedOrReadOnly`). */
  function ListFeeds(store: Store, page: Option<string>): (r: Response<Pagination.Page<Feed>>)
    ensures r.Error? <==> Pagination.RequestedPage(page).None? ||
                          Pagination.RequestedPage(page).value > Pagination.NumPages(|store.feeds|, Pagination.GlobalPageSize)
    ensures Pagination.Answers(Seqs.SortDesc(store.feeds, Queries.CreatedAt), Pagination.GlobalPageSize, page, r)
    ensures r.Ok? ==> && r.value.count == |store.feeds|
                      && |r.value.results| <= Pagination.GlobalPageSize
                      && (forall f :: f in r.value.results ==> f in store.feeds)
                      && Seqs.SortedDesc(r.value.results, Queries.CreatedAt)
  {
    var sorted := Seqs.SortDesc(store.feeds, Queries.CreatedAt);
    Seqs.SortMembers(store.feeds, Queries.CreatedAt);
    var r := Pagination.Paginate(sorted, Pagination.GlobalPageSize, page);
    if r.Ok? then
      Pagination.PageSliceWithin(sorted, Pagination.GlobalPageSize, r.value.nowPage, Queries.CreatedAt);
      r
    else r
  }

  /** `Feeds.post`: a visitor is refused; an invalid body is a 400; the
      category must be one of the user's group with the given key (404
      otherwise); the new feed belongs to the user and the user's group and
      has not been visited. */
  function CreateFeed(store: Store, actor: Actor, bodyValid: bool, category: Option<CategoryId>,
                      title: string, description: string, newId: FeedId, now: int): (o: Outcome<Feed>)
    ensures actor.Visitor? ==> o == Outcome(Error(Forbidden), store)
    ensures o.response.Error? ==> o.store == store
    ensures actor.SignedIn? && !bodyValid ==> o.response == Error(BadRequest)
    ensures actor.SignedIn? && bodyValid ==>
              (o.response == Error(NotFound) <==>
                 category.None? ||
                 forall c :: c in store.categories && c.id == category.value ==> Some(c.group) != actor.user.group)
    ensures actor.SignedIn? && bodyValid && o.response != Error(NotFound) ==> o.response.Ok?
    ensures o.response.Ok? ==>
              && var f := o.response.value;
              && actor.SignedIn? && bodyValid && category.Some?
              && f.id == newId && f.owner == actor.user.id && f.group == actor.user.group
              && f.category == category && f.visited == 0 && f.createdAt == now
              && f.title == title && f.description == description
              && (exists c :: c in store.categories && c.id == category.value && Some(c.group) == actor.user.group)
              && o.store == store.(feeds := store.feeds + [f])
  {
    if actor.Visitor? then Outcome(Error(Forbidden), store)
    else if !bodyValid then Outcome(Error(BadRequest), store)
    else
      var u := actor.user;
      var p := (c: Category) => category == Some(c.id) && Some(c.group) == u.group;
      Seqs.FilterMembers(store.categories, p);
      var found := Seqs.Filter(store.categories, p);
      if |found| == 0 then Outcome(Error(NotFound), store)
      else
        assert found[0] in found;
        var f := FeedAttributes.NewFeed(newId, u.id, u.group, category, now, title, description);
        Outcome(Ok(f), store.(feeds := store.feeds + [f]))
  }

  /** Adds one visit to every feed row with key `pk` (there is at most one). */
  function AddVisit(feeds: seq<Feed>, pk: FeedId): (r: seq<Feed>)
    ensures |r| == |feeds|
  {
    seq(|feeds|, i requires 0 <= i < |feeds| =>
      if feeds[i].id == pk then feeds[i].(visited := feeds[i].visited + 1) else feeds[i])
  }

  /** Counting a visit adds one to the counter of the feed with key `pk`
      and changes no other column and no other feed. */
  lemma VisitTouchesOnlyTheFeed(feeds: seq<Feed>, pk: FeedId)
    ensures |AddVisit(feeds, pk)| == |feeds|
    ensures forall i :: 0 <= i < |feeds| ==>
              && AddVisit(feeds, pk)[i].visited == feeds[i].visited + (if feeds[i].id == pk then 1 else 0)
              && AddVisit(feeds, pk)[i].(visited := feeds[i].visited) == feeds[i]
  {
  }

  /** `FeedDetail.get`: 403 for a visitor, 404 for an unknown key, 403 for
      a non-staff user of another group; otherwise the feed as it was read,
      and a store in which that feed's `visited` counter has grown by one
      and nothing else has changed. */
  function ReadFeed(store: Store, actor: Actor, pk: FeedId): (o: Outcome<Feed>)
    ensures o.response.Error? ==> o.store == store
    ensures actor.Visitor? ==> o.response == Error(Forbidden)
    ensures actor.SignedIn? && FindFeed(store.feeds, pk).None? ==> o.response == Error(NotFound)
    ensures actor.SignedIn? && FindFeed(store.feeds, pk).Some? ==>
              (o.response.Ok? <==> Permissions.MayRead(actor.user, FindFeed(store.feeds, pk).value)) &&
              (o.response.Error? ==> o.response.status == Forbidden)
    ensures o.response.Ok? ==>
              && o.response == Ok(FindFeed(store.feeds, pk).value)
              && o.store == store.(feeds := AddVisit(store.feeds, pk))
              && FindFeed(o.store.feeds, pk) ==
                   Some(o.response.value.(visited := o.response.value.visited + 1))
  {
    match ReadableFeed(store.feeds, actor, pk)
    case Error(s) => Outcome(Error(s), store)
    case Ok(f) =>
      FindAfterVisit(store.feeds, pk, f);
      Outcome(Ok(f), store.(feeds := AddVisit(store.feeds, pk)))
  }

  /** The checks the detail and comment views share before they read a
      feed: signed in, the feed exists, and the user may read it. */
  function ReadableFeed(feeds: seq<Feed>, actor: Actor, pk: FeedId): (r: Response<Feed>)
    ensures actor.Visitor? ==> r == Error(Forbidden)
    ensures actor.SignedIn? && FindFeed(feeds, pk).None? ==> r == Error(NotFound)
    ensures actor.SignedIn? && FindFeed(feeds, pk).Some? ==>
              (r.Ok? <==> Permissions.MayRead(actor.user, FindFeed(feeds, pk).value)) &&
              (r.Error? ==> r.status == Forbidden)
    ensures r.Ok? ==> FindFeed(feeds, pk) == Some(r.value)
  {
    if actor.Visitor? then Error(Forbidden)
    else match FindFeed(feeds, pk)
      case None => Error(NotFound)
      case Some(f) =>
        if !Permissions.MayRead(actor.user, f) then Error(Forbidden)
        else Ok(f)
  }

  /** Looking a feed up after its visit is counted finds it with one more
      visit. */
  lemma {:induction false} FindAfterVisit(feeds: seq<Feed>, pk: FeedId, f: Feed)
    requires FindFeed(feeds, pk) == Some(f)
    ensures FindFeed(AddVisit(feeds, pk), pk) == Some(f.(visited := f.visited + 1))
    decreases |feeds|
  {
    var a := AddVisit(feeds, pk);
    if feeds[0].id == pk {
      assert a[0] == feeds[0].(visited := feeds[0].visited + 1);
      assert FindFeed(a, pk) == Some(a[0]);
    } else {
      assert a[0] == feeds[0];
      assert a[1..] == AddVisit(feeds[1..], pk) by {
        var t := AddVisit(feeds[1..], pk);
        forall i | 0 <= i < |t| ensures a[1..][i] == t[i] {
          assert feeds[1..][i] == feeds[i + 1];
        }
      }
      assert FindFeed(a, pk) == FindFeed(a[1..], pk);
      assert FindFeed(feeds, pk) == FindFeed(feeds[1..], pk);
      FindAfterVisit(feeds[1..], pk, f);
    }
  }

  /** A read never lowers a counter and raises the sum of all counters by
      exactly one when keys are unique. */
  lemma ReadCountsOneVisit(store: Store, actor: Actor, pk: FeedId)
    requires UniqueFeedIds(store.feeds)
    requires ReadFeed(store, actor, pk).response.Ok?
    ensures var o := ReadFeed(store, actor, pk);
            TotalVisits(o.store.feeds) == TotalVisits(store.feeds) + 1
  {
    var o := ReadFeed(store, actor, pk);
    var f := o.response.value;
    var i :| 0 <= i < |store.feeds| && store.feeds[i] == f;
    TotalVisitsOneChange(store.feeds, o.store.feeds, i);
  }

  /** The sum of the `visited` counters. */
  function TotalVisits(feeds: seq<Feed>): nat {
    if |feeds| == 0 then 0 else feeds[0].visited + TotalVisits(feeds[1..])
  }

  lemma {:induction false} TotalVisitsOneChange(a: seq<Feed>, b: seq<Feed>, i: nat)
    requires |a| == |b| && i < |a|
    requires b[i].visited == a[i].visited + 1
    requires forall j :: 0 <= j < |a| && j != i ==> b[j].visited == a[j].visited
    ensures TotalVisits(b) == TotalVisits(a) + 1
    decreases |a|
  {
    if i > 0 {
      TotalVisitsOneChange(a[1..], b[1..], i - 1);
    } else {
      TotalVisitsSame(a[1..], b[1..]);
    }
  }

  lemma {:induction false} TotalVisitsSame(a: seq<Feed>, b: seq<Feed>)
    requires |a| == |b|
    requires forall j :: 0 <= j < |a| ==> b[j].visited == a[j].visited
    ensures TotalVisits(b) == TotalVisits(a)
    decreases |a|
  {
    if |a| > 0 {
      TotalVisitsSame(a[1..], b[1..]);
    }
  }

  /** A created feed starts unvisited: creating a feed leaves the sum of
      the `visited` counters as it was. */
  lemma CreateKeepsTotalVisits(store: Store, actor: Actor, bodyValid: bool, category: Option<CategoryId>,
                               title: string, description: string, newId: FeedId, now: int)
    ensures var o := CreateFeed(store, actor, bodyValid, category, title, description, newId, now);
            TotalVisits(o.store.feeds) == TotalVisits(store.feeds)
  {
    var o := CreateFeed(store, actor, bodyValid, category, title, description, newId, now);
    if o.response.Ok? {
      TotalVisitsAppend(store.feeds, o.response.value);
    }
  }

  lemma {:induction false} TotalVisitsAppend(feeds: seq<Feed>, f: Feed)
    ensures TotalVisits(feeds + [f]) == TotalVisits(feeds) + f.visited
    decreases |feeds|
  {
    if |feeds| > 0 {
      assert (feeds + [f])[1..] == feeds[1..] + [f];
      TotalVisitsAppend(feeds[1..], f);
    }
  }

  /** `FeedDetail.put`: 403 for a visitor, 404 for an unknown key, 403 for
      anyone but the owner (staff included), 400 for an invalid body. */
  function UpdateFeed(store: Store, actor: Actor, pk: FeedId, bodyValid: bool): (r: Response<()>)
    ensures r.Ok? <==> actor.SignedIn? && FindFeed(store.feeds, pk).Some? &&
                       Permissions.MayModify(actor.user, FindFeed(store.feeds, pk).value) && bodyValid
    ensures r == Error(NotFound) <==> actor.SignedIn? && FindFeed(store.feeds, pk).None?
    ensures r == Error(Forbidden) <==>
              actor.Visitor? ||
              (FindFeed(store.feeds, pk).Some? && !Permissions.MayModify(actor.user, FindFeed(store.feeds, pk).value))
    ensures r == Error(BadRequest) <==>
              actor.SignedIn? && FindFeed(store.feeds, pk).Some? &&
              Permissions.MayModify(actor.user, FindFeed(store.feeds, pk).value) && !bodyValid
    ensures r.Error? ==> r.status != ServerError
  {
    if actor.Visitor? then Error(Forbidden)
    else match FindFeed(store.feeds, pk)
      case None => Error(NotFound)
      case Some(f) =>
        if !Permissions.MayModify(actor.user, f) then Error(Forbidden)
        else if !bodyValid then Error(BadRequest)
        else Ok(())
  }

  /** `FeedDetail.delete`: the same checks as an edit; on success every row
      with key `pk` is gone and every other feed is kept. */
  function DeleteFeed(store: Store, actor: Actor, pk: FeedId): (o: Outcome<()>)
    ensures o.response.Ok? <==> actor.SignedIn? && FindFeed(store.feeds, pk).Some? &&
                                Permissions.MayModify(actor.user, FindFeed(store.feeds, pk).value)
    ensures o.response == Error(NotFound) <==> actor.SignedIn? && FindFeed(store.feeds, pk).None?
    ensures o.response == Error(Forbidden) <==>
              actor.Visitor? ||
              (FindFeed(store.feeds, pk).Some? && !Permissions.MayModify(actor.user, FindFeed(store.feeds, pk).value))
    ensures o.response.Error? ==> o.store == store && o.response.status != ServerError
    ensures o.response.Ok? ==>
              && o.store == store.(feeds := o.store.feeds)
              && FindFeed(o.store.feeds, pk).None?
              && forall f :: f in o.store.feeds <==> f in store.feeds && f.id != pk
  {
    if actor.Visitor? then Outcome(Error(Forbidden), store)
    else match FindFeed(store.feeds, pk)
      case None => Outcome(Error(NotFound), store)
      case Some(f) =>
        if !Permissions.MayModify(actor.user, f) then Outcome(Error(Forbidden), store)
        else
          var p := (g: Feed) => g.id != pk;
          Seqs.FilterMembers(store.feeds, p);
          Outcome(Ok(()), store.(feeds := Seqs.Filter(store.feeds, p)))
  }

  /** The endpoints of one feed answer only with client errors (4xx): every
      failure there is a refused check, never an uncaught exception. */
  lemma FeedEndpointsAnswer4xx(store: Store, actor: Actor, pk: FeedId, bodyValid: bool)
    ensures var r := ReadFeed(store, actor, pk).response; r.Error? ==> 400 <= Code(r.status) < 500
    ensures var r := UpdateFeed(store, actor, pk, bodyValid); r.Error? ==> 400 <= Code(r.status) < 500
    ensures var r := DeleteFeed(store, actor, pk).response; r.Error? ==> 400 <= Code(r.status) < 500
  {
  }

  /** Edit and delete answer alike on every request. */
  lemma EditAndDeleteAgree(store: Store, actor: Actor, pk: FeedId)
    ensures DeleteFeed(store, actor, pk).response.Ok? <==> UpdateFeed(store, actor, pk, true).Ok?
    ensures DeleteFeed(store, actor, pk).response.Error? ==>
              DeleteFeed(store, actor, pk).response == UpdateFeed(store, actor, pk, true)
  {
  }

  /** `category_id` through `get_object_or_404(Category, pk=...)`: a
      missing value finds nothing (404), a non-numeric one raises (500). */
  function LookupCategory(categories: seq<Category>, categoryParam: Option<string>): (r: Response<Category>)
    ensures r.Ok? ==> r.value in categories && categoryParam.Some? &&
                      Text.ParseInt(categoryParam.value) == Some(r.value.id)
    ensures r == Error(ServerError) <==> categoryParam.Some? && Text.ParseInt(categoryParam.value).None?
    ensures r == Error(NotFound) <==>
              categoryParam.None? ||
              (Text.ParseInt(categoryParam.value).Some? &&
               forall c :: c in categories ==> c.id != Text.ParseInt(categoryParam.value).value)
  {
    match categoryParam
    case None => Error(NotFound)
    case Some(s) =>
      match Text.ParseInt(s)
      case None => Error(ServerError)
      case Some(id) =>
        match FindCategory(categories, id)
        case None => Error(NotFound)
        case Some(c) => Ok(c)
  }

  /** `GroupFeedCategory.get`, in the order the view does it: 403 for a
      visitor, the text comparison of the group (staff skip it), the
      category lookup by key alone, the group filter on the raw `group_id`,
      then 12 per page. */
  function CategoryListing(store: Store, actor: Actor, groupParam: Option<string>,
                           categoryParam: Option<string>, page: Option<string>)
    : (r: Response<Pagination.Page<Feed>>)
    ensures actor.Visitor? ==> r == Error(Forbidden)
    ensures actor.SignedIn? && Permissions.GroupListingCheck(actor.user, groupParam).Error? ==>
              r == Error(Permissions.GroupListingCheck(actor.user, groupParam).status)
    ensures actor.SignedIn? && Permissions.GroupListingCheck(actor.user, groupParam).Ok? &&
            LookupCategory(store.categories, categoryParam).Error? ==>
              r == Error(LookupCategory(store.categories, categoryParam).status)
    ensures r == Error(NotFound) <==>
              actor.SignedIn? && Permissions.GroupListingCheck(actor.user, groupParam).Ok? &&
              LookupCategory(store.categories, categoryParam) == Error(NotFound)
    ensures actor.SignedIn? && Permissions.GroupListingCheck(actor.user, groupParam).Ok? &&
            LookupCategory(store.categories, categoryParam).Ok? && Queries.GroupScope(groupParam).Error? ==>
              r == Error(ServerError)
    ensures actor.SignedIn? && Permissions.GroupListingCheck(actor.user, groupParam).Ok? &&
            LookupCategory(store.categories, categoryParam).Ok? && Queries.GroupScope(groupParam).Ok? ==>
              var cat := LookupCategory(store.categories, categoryParam).value;
              var g := Queries.GroupScope(groupParam).value;
              Pagination.Answers(Queries.CategoryFeeds(store.feeds, store.feedLikes, g, cat),
                                 Pagination.GroupPageSize, page, r)
    ensures r.Ok? ==>
              && actor.SignedIn?
              && Permissions.GroupListingCheck(actor.user, groupParam).Ok?
              && LookupCategory(store.categories, categoryParam).Ok?
              && Queries.GroupScope(groupParam).Ok?
              && var cat := LookupCategory(store.categories, categoryParam).value;
              && var g := Queries.GroupScope(groupParam).value;
              && |r.value.results| <= Pagination.GroupPageSize
              && r.value.count == |Queries.CategoryFeeds(store.feeds, store.feedLikes, g, cat)|
              && forall f :: f in r.value.results ==> f in store.feeds && Queries.InCategoryListing(f, g, cat)
  {
    if actor.Visitor? then Error(Forbidden)
    else
      var check := Permissions.GroupListingCheck(actor.user, groupParam);
      if check.Error? then Error(check.status)
      else match LookupCategory(store.categories, categoryParam)
        case Error(s) => Error(s)
        case Ok(cat) =>
          match Queries.GroupScope(groupParam)
          case Error(s) => Error(s)
          case Ok(g) => CategoryPage(store, g, cat, page)
  }

  /** One page of the category listing's feeds for group `g`. */
  function CategoryPage(store: Store, g: Option<GroupId>, cat: Category, page: Option<string>)
    : (r: Response<Pagination.Page<Feed>>)
    ensures r.Error? ==> r.status == ServerError || r.status == BadRequest
    ensures Pagination.Answers(Queries.CategoryFeeds(store.feeds, store.feedLikes, g, cat),
                               Pagination.GroupPageSize, page, r)
    ensures r.Ok? ==>
              && |r.value.results| <= Pagination.GroupPageSize
              && r.value.count == |Queries.CategoryFeeds(store.feeds, store.feedLikes, g, cat)|
              && (forall f :: f in r.value.results ==> f in store.feeds && Queries.InCategoryListing(f, g, cat))
              && (cat.name == Queries.Popular ==> Seqs.SortedDesc(r.value.results, Queries.LikesOf(store.feedLikes)))
              && (cat.name != Queries.Popular ==> Seqs.SortedDesc(r.value.results, Queries.CreatedAt))
  {
    var selected := Queries.CategoryFeeds(store.feeds, store.feedLikes, g, cat);
    var r := Pagination.Paginate(selected, Pagination.GroupPageSize, page);
    if r.Ok? then
      var key := if cat.name == Queries.Popular then Queries.LikesOf(store.feedLikes) else Queries.CreatedAt;
      Pagination.PageSliceWithin(selected, Pagination.GroupPageSize, r.value.nowPage, key);
      r
    else r
  }

  /** A non-staff user who gets a page of the category listing sees feeds
      of their own group only. */
  lemma CategoryListingStaysInGroup(store: Store, actor: Actor, groupParam: Option<string>,
                                    categoryParam: Option<string>, page: Option<string>)
    requires actor.SignedIn? && !actor.user.isStaff
    requires actor.user.group.Some? ==> IsKey(actor.user.group.value)
    ensures var r := CategoryListing(store, actor, groupParam, categoryParam, page);
            r.Ok? ==> forall f :: f in r.value.results ==> f.group == actor.user.group
  {
    if Permissions.GroupListingCheck(actor.user, groupParam).Ok? {
      Permissions.ListingCheckPinsOwnGroup(actor.user, groupParam);
    }
  }

  /** The listing does not check that the category belongs to the group: a
      user asking for their own group is served the first page for any
      existing category key, a category of another group included. */
  lemma CategoryOfAnyGroupAccepted(store: Store, u: User, g: GroupId, cat: Category)
    requires u.group == Some(g) && IsKey(g) && IsKey(cat.id)
    requires FindCategory(store.categories, cat.id) == Some(cat)
    ensures CategoryListing(store, SignedIn(u), Some(Text.IntToString(g)),
                            Some(Text.IntToString(cat.id)), None).Ok?
  {
    KeyRoundTrip(cat.id);
    KeyRoundTrip(g);
    assert Pagination.RequestedPage(None) == Some(1);
  }

  /** `FeedComment.get`: 403 for a visitor, 404 for an unknown feed, 403
      for a non-staff user of another group; otherwise the feed's thread,
      as the serializer renders it, with anonymous labels added. */
  function ListComments(store: Store, actor: Actor, pk: FeedId, thread: seq<Anonymiser.Comment>)
    : (r: Response<seq<Anonymiser.Comment>>)
    ensures r.Ok? <==> actor.SignedIn? && FindFeed(store.feeds, pk).Some? &&
                       Permissions.MayRead(actor.user, FindFeed(store.feeds, pk).value)
    ensures r == Error(NotFound) <==> actor.SignedIn? && FindFeed(store.feeds, pk).None?
    ensures r.Error? ==> r.status == NotFound || r.status == Forbidden
    ensures r.Ok? ==> Anonymiser.ThreadLabelled(thread, r.value, Anonymiser.Order(thread))
  {
    if actor.Visitor? then Error(Forbidden)
    else match FindFeed(store.feeds, pk)
      case None => Error(NotFound)
      case Some(f) =>
        if !Permissions.MayRead(actor.user, f) then Error(Forbidden)
        else Ok(Anonymiser.Anonymise(thread))
  }

  /** `FeedComment.post`: 403 for a visitor, 404 for an unknown feed, 403
      for anyone outside the feed's group (staff included), 400 for an
      invalid body; otherwise one new comment row by the user on the feed. */
  function PostComment(store: Store, actor: Actor, pk: FeedId, bodyValid: bool,
                       description: string, newId: CommentId): (o: Outcome<CommentRow>)
    ensures o.response.Ok? <==> actor.SignedIn? && FindFeed(store.feeds, pk).Some? &&
                                Permissions.MayComment(actor.user, FindFeed(store.feeds, pk).value) && bodyValid
    ensures o.response == Error(NotFound) <==> actor.SignedIn? && FindFeed(store.feeds, pk).None?
    ensures o.response == Error(Forbidden) <==>
              actor.Visitor? ||
              (FindFeed(store.feeds, pk).Some? && !Permissions.MayComment(actor.user, FindFeed(store.feeds, pk).value))
    ensures o.response == Error(BadRequest) <==>
              actor.SignedIn? && FindFeed(store.feeds, pk).Some? &&
              Permissions.MayComment(actor.user, FindFeed(store.feeds, pk).value) && !bodyValid
    ensures o.response.Error? ==> o.store == store && o.response.status != ServerError
    ensures o.response.Ok? ==>
              && o.response.value == CommentRow(newId, pk, actor.user.id, description)
              && o.store == store.(comments := store.comments + [o.response.value])
  {
    if actor.Visitor? then Outcome(Error(Forbidden), store)
    else match FindFeed(store.feeds, pk)
      case None => Outcome(Error(NotFound), store)
      case Some(f) =>
        if !Permissions.MayComment(actor.user, f) then Outcome(Error(Forbidden), store)
        else if !bodyValid then Outcome(Error(BadRequest), store)
        else
          var c := CommentRow(newId, pk, actor.user.id, description);
          Outcome(Ok(c), store.(comments := store.comments + [c]))
  }

  /** `FeedRecomment.post`: the checks of a comment, then 404 for an
      unknown comment and 403 for a comment under another feed; otherwise
      one new reply row by the user under the comment. */
  function PostRecomment(store: Store, actor: Actor, pk: FeedId, commentPk: CommentId, bodyValid: bool,
                         description: string, newId: int): (o: Outcome<RecommentRow>)
    ensures o.response.Ok? <==>
              && actor.SignedIn? && FindFeed(store.feeds, pk).Some?
              && Permissions.MayComment(actor.user, FindFeed(store.feeds, pk).value)
              && FindComment(store.comments, commentPk).Some?
              && FindComment(store.comments, commentPk).value.feed == pk
              && bodyValid
    ensures o.response == Error(NotFound) <==>
              && actor.SignedIn?
              && (|| FindFeed(store.feeds, pk).None?
                  || (Permissions.MayComment(actor.user, FindFeed(store.feeds, pk).value) &&
                      FindComment(store.comments, commentPk).None?))
    ensures o.response == Error(Forbidden) <==>
              || actor.Visitor?
              || (&& FindFeed(store.feeds, pk).Some?
                  && (|| !Permissions.MayComment(actor.user, FindFeed(store.feeds, pk).value)
                      || (FindComment(store.comments, commentPk).Some? &&
                          FindComment(store.comments, commentPk).value.feed != pk)))
    ensures o.response == Error(BadRequest) <==>
              && actor.SignedIn? && FindFeed(store.feeds, pk).Some?
              && Permissions.MayComment(actor.user, FindFeed(store.feeds, pk).value)
              && FindComment(store.comments, commentPk).Some?
              && FindComment(store.comments, commentPk).value.feed == pk
              && !bodyValid
    ensures o.response.Error? ==> o.store == store && o.response.status != ServerError
    ensures o.response.Ok? ==>
              && o.response.value == RecommentRow(newId, commentPk, actor.user.id, description)
              && o.store == store.(recomments := store.recomments + [o.response.value])
  {
    if actor.Visitor? then Outcome(Error(Forbidden), store)
    else match FindFeed(store.feeds, pk)
      case None => Outcome(Error(NotFound), store)
      case Some(f) =>
        if !Permissions.MayComment(actor.user, f) then Outcome(Error(Forbidden), store)
        else match FindComment(store.comments, commentPk)
          case None => Outcome(Error(NotFound), store)
          case Some(c) =>
            if c.feed != f.id then Outcome(Error(Forbidden), store)
            else if !bodyValid then Outcome(Error(BadRequest), store)
            else
              var rc := RecommentRow(newId, commentPk, actor.user.id, description);
              Outcome(Ok(rc), store.(recomments := store.recomments + [rc]))
  }

  /** A reply is accepted only when a top-level comment on the same feed
      would be: the reply adds the comment checks to the comment's own. */
  lemma RecommentNeedsCommentRights(store: Store, actor: Actor, pk: FeedId, commentPk: CommentId,
                                    bodyValid: bool, description: string, newId: int)
    requires PostRecomment(store, actor, pk, commentPk, bodyValid, description, newId).response.Ok?
    ensures PostComment(store, actor, pk, bodyValid, description, newId).response.Ok?
  {
  }

  /** `bool(keyword)` in Python: missing or empty. */
  predicate KeywordGiven(keyword: Option<string>) {
    keyword.Some? && |keyword.value| > 0
  }

  /** `GroupFeedSearch.get`: 403 for a visitor; an empty 200 (`None`) when
      the keyword is missing or empty; otherwise at most five suggestions of
      the group's feeds whose title contains the keyword, newest first. The
      user's own group is never consulted. */
  function SearchSuggestions(store: Store, actor: Actor, groupParam: Option<string>, keyword: Option<string>)
    : (r: Response<Option<seq<Suggestion>>>)
    ensures actor.Visitor? ==> r == Error(Forbidden)
    ensures actor.SignedIn? && !KeywordGiven(keyword) ==> r == Ok(None)
    ensures actor.SignedIn? && KeywordGiven(keyword) ==>
              (r.Ok? <==> Queries.GroupScope(groupParam).Ok?) &&
              (r.Error? ==> r.status == ServerError) &&
              (r.Ok? ==> r.value.Some?)
    ensures r.Ok? && r.value.Some? ==>
              && KeywordGiven(keyword)
              && r.value.value ==
                   Suggestions(Queries.SuggestedFeeds(store.feeds, Queries.GroupScope(groupParam).value, keyword.value))
              && |r.value.value| <= Queries.SuggestionLimit
              && forall s :: s in r.value.value ==>
                   exists f :: f in store.feeds && s == Suggestion(f.id, f.title) &&
                               Queries.GroupScope(groupParam) == Ok(f.group) &&
                               Queries.TitleMatches(f, keyword.value)
  {
    if actor.Visitor? then Error(Forbidden)
    else if !KeywordGiven(keyword) then Ok(None)
    else match Queries.GroupScope(groupParam)
      case Error(s) => Error(s)
      case Ok(g) =>
        var fs := Queries.SuggestedFeeds(store.feeds, g, keyword.value);
        SuggestionsOfMatches(fs, store.feeds, g, keyword.value);
        Ok(Some(Suggestions(fs)))
  }

  /** The `{"id", "title"}` entry of each feed, in order. */
  function Suggestions(fs: seq<Feed>): (out: seq<Suggestion>)
    ensures |out| == |fs|
    ensures forall i :: 0 <= i < |fs| ==> out[i].id == fs[i].id && out[i].title == fs[i].title
  {
    seq(|fs|, i requires 0 <= i < |fs| => Suggestion(fs[i].id, fs[i].title))
  }

  /** Every entry built from the suggested feeds names a feed of the group
      whose title matches. */
  lemma SuggestionsOfMatches(fs: seq<Feed>, feeds: seq<Feed>, g: Option<GroupId>, keyword: string)
    requires forall f :: f in fs ==> f in feeds && f.group == g && Queries.TitleMatches(f, keyword)
    ensures forall s :: s in Suggestions(fs) ==>
              exists f :: f in feeds && s == Suggestion(f.id, f.title) &&
                          f.group == g && Queries.TitleMatches(f, keyword)
  {
    var out := Suggestions(fs);
    forall s | s in out
      ensures exists f :: f in feeds && s == Suggestion(f.id, f.title) && f.group == g && Queries.TitleMatches(f, keyword)
    {
      var i :| 0 <= i < |out| && out[i] == s;
      assert fs[i] in fs;
    }
  }

  /** `GroupFeedSearchResult.get`: 403 for a visitor; an empty 200 when the
      keyword is missing or empty; otherwise the group's feeds whose title
      or description contains the keyword, newest first, 12 per page. */
  function SearchResults(store: Store, actor: Actor, groupParam: Option<string>, keyword: Option<string>,
                         page: Option<string>): (r: Response<Option<Pagination.Page<Feed>>>)
    ensures actor.Visitor? ==> r == Error(Forbidden)
    ensures actor.SignedIn? && !KeywordGiven(keyword) ==> r == Ok(None)
    ensures actor.SignedIn? && KeywordGiven(keyword) && Queries.GroupScope(groupParam).Error? ==>
              r == Error(ServerError)
    ensures actor.SignedIn? && KeywordGiven(keyword) && Queries.GroupScope(groupParam).Ok? ==>
              var selected := Queries.SearchFeeds(store.feeds, Queries.GroupScope(groupParam).value, keyword.value);
              var n := Pagination.RequestedPage(page);
              && (r.Ok? <==> n.Some? && n.value <= Pagination.NumPages(|selected|, Pagination.GroupPageSize))
              && (r.Error? ==> r.status == if n.None? then ServerError else BadRequest)
              && (r.Ok? ==> r.value.Some? && Pagination.PageOf(selected, Pagination.GroupPageSize, n.value, r.value.value))
    ensures r.Ok? && r.value.Some? ==>
              && KeywordGiven(keyword)
              && var g := Queries.GroupScope(groupParam).value;
              && r.value.value.count == |Queries.SearchFeeds(store.feeds, g, keyword.value)|
              && |r.value.value.results| <= Pagination.GroupPageSize
              && Seqs.SortedDesc(r.value.value.results, Queries.CreatedAt)
              && forall f :: f in r.value.value.results ==>
                   f in store.feeds && f.group == g && Queries.TitleOrDescriptionMatches(f, keyword.value)
  {
    if actor.Visitor? then Error(Forbidden)
    else if !KeywordGiven(keyword) then Ok(None)
    else match Queries.GroupScope(groupParam)
      case Error(s) => Error(s)
      case Ok(g) =>
        var selected := Queries.SearchFeeds(store.feeds, g, keyword.value);
        match Pagination.Paginate(selected, Pagination.GroupPageSize, page)
        case Error(s) => Error(s)
        case Ok(p) =>
          Pagination.PageSliceWithin(selected, Pagination.GroupPageSize, p.nowPage, Queries.CreatedAt);
          Ok(Some(p))
  }

  /** Neither search view looks at the user's group or staff flag: any two
      signed-in users get the same answer. */
  lemma SearchIgnoresTheUser(store: Store, u: User, v: User, groupParam: Option<string>,
                             keyword: Option<string>, page: Option<string>)
    ensures SearchSuggestions(store, SignedIn(u), groupParam, keyword) ==
            SearchSuggestions(store, SignedIn(v), groupParam, keyword)
    ensures SearchResults(store, SignedIn(u), groupParam, keyword, page) ==
            SearchResults(store, SignedIn(v), groupParam, keyword, page)
  {
  }
}
